=== FILE: README.md ===
# TodaysFish image pipeline and entities in Dafny

A Dafny model of the integer and bookkeeping core of the TodaysFish Android
app, an app that recognises fish species from the camera. The model covers:

- **ImageUtils** (`image_utils.dfy`, `yuv_conversion.dfy`):
  - the fixed-point BT.601 `YUV2RGB` pixel conversion, with its 18-bit clamp and ARGB packing;
  - the buffer size `getYUVByteSize`;
  - the two frame converters, planar YUV 4:2:0 with strides (Camera2) and semi-planar NV21 (legacy camera);
  - the integer decisions of `getTransformationMatrix`: transpose, rotated extent, rotation warning, and which steps are composed.
- **AutoFitTextureView** (`auto_fit_texture_view.dfy`): `setAspectRatio` and the arithmetic of `onMeasure`.
- **MultiBoxTracker** (`multi_box_tracker.dfy`):
  - `onFrame`;
  - `processResults`, which maps detections to screen rectangles, filters degenerate ones and colours up to 15 tracked objects;
  - the rotation and multiplier computation of `draw`.
- **Address** and **ResponseResult** (`address.dfy`, `response_data.dfy`): the name, the validity tests and `setGpsCoordinates`; `isError` and `isSuccess`.

Helper modules model the Kotlin runtime:

- `kotlin_int.dfy`: 32-bit `Int` with wrap-around, and truncating `/` and `%`;
- `kotlin_text.dfy`: `Char.isWhitespace`, `isBlank` and `trim`;
- `kotlin_null.dfy`: nullable values and `?:`;
- `arithmetic.dfy`: row-major indexing and multiplication facts.

Modelling choices:

- **Integers.** Every Kotlin `Int` is an `Int32`. Each `*` and `+` that can overflow is wrapped explicitly. `/` and `%` truncate toward zero, as on the JVM.
- **Pixels and bytes.** A pixel word is a `bv32`, because the source packs it with shifts and masks and compares it signed. A camera byte is a `bv8`.
- **Mutation.** Mutating members are pure functions from the old state to the new one. The converters take the output array's contents and return them after the call.
- **Exceptions.** An exception the source can raise is an outcome value:
  - an out-of-bounds array access part-way through a frame;
  - `IllegalArgumentException`;
  - `!!` on a null value;
  - reading the uninitialised `lateinit` matrix;
  - division by zero.

  The outcome carries the state the throw leaves behind.
- **Floats and matrices.** `Float` and `Double` values are `real`. The `Matrix` that maps frame rectangles to the screen is a function parameter.

Two results are worth knowing:

- Nominal white (235, 128, 128) does not reach full white: it converts to `0xFFFEFEFE` (`ImageUtils.WhiteIsNearWhite`).
- The doc comment of `setAspectRatio` says that 2:3 and 4:6 give the same result. That holds while the products in `onMeasure` do not overflow (`AutoFitTextureView.ScaledRatioMeasuresAlike`). It can fail when they do (`AutoFitTextureView.ScaledRatioOverflows`).

Two properties of the converters are worth knowing:

- For an odd frame width, the NV21 converter advances by `width` bytes per chroma line while a line holds `(width + 1) / 2` pairs. Consecutive chroma lines therefore share a byte (`YuvConversion.OddWidthChromaLinesOverlap`). A buffer of `getYUVByteSize` bytes is still always large enough (`YuvConversion.LegacyBufferIsLargeEnough`).
- The converters are generic in the per-pixel conversion. Their contracts state the whole-frame outcome: a complete conversion exactly when every index is in bounds; otherwise a stop at the first faulting pixel, with the converted prefix and the untouched rest.

## Model

| member | source | states |
|---|---|---|
| `ImageUtils.ArgbRoundTrip` | TodaysFish/app/src/main/java/com/reelingsoft/todaysfish/utility/ImageUtils.kt:172-175 | Reading the alpha, red, green and blue bytes back out of a packed ARGB word gives exactly the four channels that were packed. |
| `ImageUtils.ArgbComplete` | TodaysFish/app/src/main/java/com/reelingsoft/todaysfish/utility/ImageUtils.kt:172-175 | Every 32-bit word is the ARGB packing of its own four bytes, so the channel accessors lose nothing. |
| `ImageUtils.LumaOffset` | TodaysFish/app/src/main/java/com/reelingsoft/todaysfish/utility/ImageUtils.kt:149 | Luma with the 16 offset removed and floored at zero is never negative as a signed `Int`, including for words above `Int.MAX_VALUE`. |
| `ImageUtils.Clamp18` | TodaysFish/app/src/main/java/com/reelingsoft/todaysfish/utility/ImageUtils.kt:163-170 | The clamp keeps an 18-bit fixed-point channel: the result is at most `kMaxChannelValue`; it equals the input when the input is already in range; it is 0 for signed-negative inputs; it is the maximum for larger ones. |
| `ImageUtils.PackChannels` | TodaysFish/app/src/main/java/com/reelingsoft/todaysfish/utility/ImageUtils.kt:172-175 | The shift-and-mask packing equals the reference ARGB packing of an opaque pixel whose channels are the top 8 of the 18 fixed-point bits. |
| `ImageUtils.ShiftMaskIsScaling` | TodaysFish/app/src/main/java/com/reelingsoft/todaysfish/utility/ImageUtils.kt:172-174 | Each of the three shift-and-mask expressions places that channel's top 8 bits in its own byte of the word. |
| `ImageUtils.YUV2RGB` | TodaysFish/app/src/main/java/com/reelingsoft/todaysfish/utility/ImageUtils.kt:147-176 | The converted pixel is opaque; each of red, green and blue is the scaled, clamped fixed-point BT.601 sum for its channel. |
| `ImageUtils.LumaFloor` | TodaysFish/app/src/main/java/com/reelingsoft/todaysfish/utility/ImageUtils.kt:149 | Luma at or below the 16 offset converts exactly like luma 16. |
| `ImageUtils.BlackIsBlack` | TodaysFish/app/src/main/java/com/reelingsoft/todaysfish/utility/ImageUtils.kt:147-176 | Nominal black (16, 128, 128) converts to opaque black `0xFF000000`. |
| `ImageUtils.WhiteIsNearWhite` | TodaysFish/app/src/main/java/com/reelingsoft/todaysfish/utility/ImageUtils.kt:147-176 | Nominal white (235, 128, 128) converts to `0xFFFEFEFE`, one step below full white on each colour channel. |
| `ImageUtils.CeilHalf` | TodaysFish/app/src/main/java/com/reelingsoft/todaysfish/utility/ImageUtils.kt:82-84 | The half-size of a dimension is its half rounded up: twice it is the dimension or one more. |
| `ImageUtils.HalfRoundedUp` | TodaysFish/app/src/main/java/com/reelingsoft/todaysfish/utility/ImageUtils.kt:84 | `(w + 1) / 2` in 32-bit arithmetic is the dimension halved and rounded up, for every non-negative width below `Int.MAX_VALUE`. |
| `ImageUtils.GetYUVByteSize` | TodaysFish/app/src/main/java/com/reelingsoft/todaysfish/utility/ImageUtils.kt:78-87 | For non-negative dimensions whose size fits in an `Int`, the byte size equals the reference semi-planar size: one luma byte per pixel plus two chroma bytes per 2x2 block, odd sizes rounded up. It is never less than the pixel count. |
| `ImageUtils.HalvesMultiply` | TodaysFish/app/src/main/java/com/reelingsoft/todaysfish/utility/ImageUtils.kt:84 | The chroma block count is the product of the two rounded-up halves, with no 32-bit wrap-around when the whole size fits. |
| `ImageUtils.OddFrameByteSize` | TodaysFish/app/src/main/java/com/reelingsoft/todaysfish/utility/ImageUtils.kt:78-87 | A 641x481 frame needs 321x241 chroma pairs after its 641x481 luma bytes. |
| `ImageUtils.Transpose` | TodaysFish/app/src/main/java/com/reelingsoft/todaysfish/utility/ImageUtils.kt:197 | Whenever `abs(rotation) + 90` fits in an `Int`, the matrix swaps width and height exactly when the rotation is an odd multiple of 90 degrees, of either sign. |
| `ImageUtils.InExtent` | TodaysFish/app/src/main/java/com/reelingsoft/todaysfish/utility/ImageUtils.kt:199-200 | Whenever `abs(rotation) + 90` fits in an `Int`, the extent compared with the destination is the swapped source size for odd multiples of 90 degrees, and the source size itself for every other rotation. |
| `ImageUtils.RightAngleRotations` | TodaysFish/app/src/main/java/com/reelingsoft/todaysfish/utility/ImageUtils.kt:197-200 | The extent the matrix compares with the destination is the source size for 0 and 180 degrees, and the swapped size for 90, 270 and -90 degrees. |
| `ImageUtils.RotationWarning` | TodaysFish/app/src/main/java/com/reelingsoft/todaysfish/utility/ImageUtils.kt:183-186 | The warning is logged exactly for rotations that are not multiples of 90 degrees. Kotlin's truncating `%` and the `applyRotation != 0` guard agree with the mathematical test. |
| `ImageUtils.ScaleStep` | TodaysFish/app/src/main/java/com/reelingsoft/todaysfish/utility/ImageUtils.kt:203-216 | The scale is a `postScale`; when the aspect ratio is kept it uses one factor for both axes. |
| `ImageUtils.ScaleFillsDestination` | TodaysFish/app/src/main/java/com/reelingsoft/todaysfish/utility/ImageUtils.kt:203-216 | For a non-empty rotated extent, a free-aspect scale maps the extent exactly onto the destination on both axes. A kept-aspect scale uses the larger of the two per-axis factors on both axes, so the scaled extent covers the destination and meets it on one axis. |
| `ImageUtils.TransformationSteps` | TodaysFish/app/src/main/java/com/reelingsoft/todaysfish/utility/ImageUtils.kt:179-224 | The matrix is composed of exactly these steps: centre-to-origin and rotate, only when there is a rotation; one scale, exactly when the rotated source extent differs from the destination, taken from that extent; and a move into the destination, only when there was a rotation. The step count is fixed by these two conditions and the scale sits between the rotation and the final move. |
| `ImageUtils.UnrotatedHalving` | TodaysFish/app/src/main/java/com/reelingsoft/todaysfish/utility/ImageUtils.kt:179-224 | An unrotated 640x480 frame onto 320x240 is one per-axis scale by 320/640 and 240/480. |
| `ImageUtils.QuarterTurnHalving` | TodaysFish/app/src/main/java/com/reelingsoft/todaysfish/utility/ImageUtils.kt:179-224 | A 640x480 frame rotated 90 degrees onto 240x320 is centre, rotate, scale by 240/480 and 320/640, and move back. |
| `YuvConversion.Unsigned` | TodaysFish/app/src/main/java/com/reelingsoft/todaysfish/utility/ImageUtils.kt:112-114 | `0xff and b` reads a signed byte as a value below 256 that truncates back to the same byte. |
| `YuvConversion.ConvertYUV420ToARGB8888` | TodaysFish/app/src/main/java/com/reelingsoft/todaysfish/utility/ImageUtils.kt:90-118 | The output keeps its length. The planar frame converts completely, each pixel at its row-major place from its own luma and its block's chroma, exactly when every index read is inside its plane and the output has room. Otherwise the call stops at the first pixel that faults, with every earlier pixel converted and later entries untouched. |
| `YuvConversion.ConvertPlanarBy` | TodaysFish/app/src/main/java/com/reelingsoft/todaysfish/utility/ImageUtils.kt:105-117 | For any per-pixel conversion, the row-by-row loop gives the whole-frame outcome: all converted when every pixel is readable, otherwise stopped at the first fault with the converted prefix and untouched rest. |
| `YuvConversion.ConvertPlanarRow` | TodaysFish/app/src/main/java/com/reelingsoft/todaysfish/utility/ImageUtils.kt:106-117 | One row either converts all its pixels, extending the converted prefix by the width, or stops inside the row at a faulting pixel; entries past the stopping point are untouched. |
| `YuvConversion.ConvertYUV420SPToARGB8888` | TodaysFish/app/src/main/java/com/reelingsoft/todaysfish/utility/ImageUtils.kt:120-144 | The output keeps its length. The NV21 frame converts completely, each pixel from its own luma and its block's V,U pair, exactly when every index read is inside the input and the output has room. Otherwise the call stops at the first faulting pixel, with earlier pixels converted and later entries untouched. |
| `YuvConversion.ConvertSemiPlanarBy` | TodaysFish/app/src/main/java/com/reelingsoft/todaysfish/utility/ImageUtils.kt:126-143 | For any per-pixel conversion, the row loop with its running chroma pointer gives the whole-frame outcome of the semi-planar layout. |
| `YuvConversion.ConvertSemiPlanarRow` | TodaysFish/app/src/main/java/com/reelingsoft/todaysfish/utility/ImageUtils.kt:130-142 | One semi-planar row, with the chroma pointer restarting at its chroma line, either converts completely or stops at the first faulting pixel with the prefix converted. |
| `YuvConversion.ChromaStep` | TodaysFish/app/src/main/java/com/reelingsoft/todaysfish/utility/ImageUtils.kt:137-140 | On even columns the step reads a new V,U pair exactly when the pair's two bytes are inside the input. On odd columns it reuses the pair of the even column before. Either way the pointer stays at its chroma line's start plus the even column. |
| `YuvConversion.ReadPair` | TodaysFish/app/src/main/java/com/reelingsoft/todaysfish/utility/ImageUtils.kt:138-139 | Reading a V,U pair succeeds exactly when both bytes are inside the input; it yields them unsigned and advances the pointer by two. |
| `YuvConversion.PairInsideFrame` | TodaysFish/app/src/main/java/com/reelingsoft/todaysfish/utility/ImageUtils.kt:126-140 | Every pixel's V,U pair lies before the end of a buffer of the semi-planar size. |
| `YuvConversion.LegacyBufferIsLargeEnough` | TodaysFish/app/src/main/java/com/reelingsoft/todaysfish/utility/ImageUtils.kt:78-144 | A buffer of `getYUVByteSize(width, height)` bytes lets the semi-planar converter read every pixel of a width x height frame, so with room in the output it converts completely. |
| `YuvConversion.SemiPlanarPixelInside` | TodaysFish/app/src/main/java/com/reelingsoft/todaysfish/utility/ImageUtils.kt:126-140 | In a buffer of exactly the semi-planar size, every pixel's luma byte and V,U pair are inside the buffer. |
| `YuvConversion.PlanarBuffersLargeEnough` | TodaysFish/app/src/main/java/com/reelingsoft/todaysfish/utility/ImageUtils.kt:105-117 | Planes long enough for the last row and the last chroma block, with non-negative strides, make every pixel of the frame readable. |
| `YuvConversion.PlanarPixelInside` | TodaysFish/app/src/main/java/com/reelingsoft/todaysfish/utility/ImageUtils.kt:107-114 | Under the same plane bounds, the 32-bit index arithmetic does not wrap, and each pixel reads inside all three planes. |
| `YuvConversion.BlockSharesChroma` | TodaysFish/app/src/main/java/com/reelingsoft/todaysfish/utility/ImageUtils.kt:108-114 | Pixels of the same 2x2 block read the same U and V samples, in both layouts. |
| `YuvConversion.OddWidthChromaLinesOverlap` | TodaysFish/app/src/main/java/com/reelingsoft/todaysfish/utility/ImageUtils.kt:130-140 | For an odd width the chroma pointer moves on by `width` per chroma line while a line holds `(width + 1) / 2` pairs, so the U byte of a row's last pair is the V byte of the next chroma line's first pair. |
| `AutoFitTextureView.SetAspectRatio` | TodaysFish/app/src/main/java/com/reelingsoft/todaysfish/customview/AutoFitTextureView.kt:30-37 | A negative width or height is rejected with `IllegalArgumentException` and leaves the ratio unchanged; otherwise the new ratio is stored as given. |
| `AutoFitTextureView.OnMeasure` | TodaysFish/app/src/main/java/com/reelingsoft/todaysfish/customview/AutoFitTextureView.kt:40-55 | The measured size keeps either the available width or the available height. Without a ratio it is the available size itself. Which side is kept is stated by `AutoFitTextureView.MeasureKeepsRatio`. |
| `AutoFitTextureView.ExactFloors` | TodaysFish/app/src/main/java/com/reelingsoft/todaysfish/customview/AutoFitTextureView.kt:48-52 | When the products fit in an `Int`, the other dimension is the exact floor of the ratio applied to the kept one. |
| `AutoFitTextureView.MeasureFitsAvailable` | TodaysFish/app/src/main/java/com/reelingsoft/todaysfish/customview/AutoFitTextureView.kt:40-55 | With a positive ratio and no overflow, the measured size fits inside the available space and is non-negative. |
| `AutoFitTextureView.MeasureKeepsRatio` | TodaysFish/app/src/main/java/com/reelingsoft/todaysfish/customview/AutoFitTextureView.kt:40-55 | With a positive ratio and no overflow, one dimension is kept and the other is the largest value not exceeding the ratio, so the result has the requested proportions up to rounding. The height is kept exactly when the width it calls for, rounded down, fits the available width. |
| `AutoFitTextureView.ScaledRatioMeasuresAlike` | TodaysFish/app/src/main/java/com/reelingsoft/todaysfish/customview/AutoFitTextureView.kt:22-29 | Ratios that are multiples of each other, such as 2:3 and 4:6, measure alike whenever no product overflows. |
| `AutoFitTextureView.ScaledRatioOverflows` | TodaysFish/app/src/main/java/com/reelingsoft/todaysfish/customview/AutoFitTextureView.kt:22-29 | At an available size of 2^29 pixels, 2:3 and 4:6 measure differently: the 4:6 product wraps and gives a negative width. |
| `MultiBoxTracker.ColorsDistinct` | TodaysFish/app/src/main/java/com/reelingsoft/todaysfish/tflite/MultiBoxTracker.kt:30-46 | The palette has 15 colours, no two alike, so at most 15 objects get distinct colours. |
| `MultiBoxTracker.AddColors` | TodaysFish/app/src/main/java/com/reelingsoft/todaysfish/tflite/MultiBoxTracker.kt:48-51 | Adding colours to an unassigned `lateinit` queue throws `UninitializedPropertyAccessException` as soon as there is a colour to add. Adding them to an existing queue appends them all, in order. |
| `MultiBoxTracker.NewTrackerAsWritten` | TodaysFish/app/src/main/java/com/reelingsoft/todaysfish/tflite/MultiBoxTracker.kt:27-51 | No contract of its own: the constructor as written, adding the palette to the unassigned queue. `MultiBoxTracker.ConstructorThrows` states that it throws. |
| `MultiBoxTracker.NewTrackerCorrected` | TodaysFish/app/src/main/java/com/reelingsoft/todaysfish/tflite/MultiBoxTracker.kt:27-51 | No contract of its own: the constructor with the queue created empty before the palette is added. `MultiBoxTracker.CorrectedConstructorQueuesPalette` states what it builds. |
| `MultiBoxTracker.ConstructorThrows` | TodaysFish/app/src/main/java/com/reelingsoft/todaysfish/tflite/MultiBoxTracker.kt:27-51 | As written, constructing a tracker throws `UninitializedPropertyAccessException`. |
| `MultiBoxTracker.CorrectedConstructorQueuesPalette` | TodaysFish/app/src/main/java/com/reelingsoft/todaysfish/tflite/MultiBoxTracker.kt:27-51 | With the queue created before the init block, construction yields an empty tracker and a queue holding the 15 palette colours in order, none repeated. |
| `MultiBoxTracker.OnFrame` | TodaysFish/app/src/main/java/com/reelingsoft/todaysfish/tflite/MultiBoxTracker.kt:69-75 | A frame records its size and orientation and marks the tracker initialised; the tracked objects and screen rectangles are unchanged. |
| `MultiBoxTracker.OnFrameIgnoresRest` | TodaysFish/app/src/main/java/com/reelingsoft/todaysfish/tflite/MultiBoxTracker.kt:69-75 | The row stride, the frame's bytes and its timestamp do not affect the tracker, and a repeated frame changes nothing. |
| `MultiBoxTracker.Select` | TodaysFish/app/src/main/java/com/reelingsoft/todaysfish/tflite/MultiBoxTracker.kt:132-152 | The first loop keeps no more candidates than screen rectangles, keeps no candidate below the minimum size, and on a null confidence stops with nothing to track. |
| `MultiBoxTracker.Track` | TodaysFish/app/src/main/java/com/reelingsoft/todaysfish/tflite/MultiBoxTracker.kt:159-171 | The tracking loop only appends to the tracked list and never exceeds the 15 colours. |
| `MultiBoxTracker.ProcessResults` | TodaysFish/app/src/main/java/com/reelingsoft/todaysfish/tflite/MultiBoxTracker.kt:124-172 | Without a matrix the call throws before changing anything. Otherwise only the tracked objects and screen rectangles can change, earlier screen rectangles are kept as a prefix, and the tracked list is either unchanged or at most 15 objects, none below the minimum size. |
| `MultiBoxTracker.TrackKeepsTrackable` | TodaysFish/app/src/main/java/com/reelingsoft/todaysfish/tflite/MultiBoxTracker.kt:146-171 | Tracking only candidates that passed the size filter keeps every tracked object at or above the minimum size. |
| `MultiBoxTracker.TrackSpec` | TodaysFish/app/src/main/java/com/reelingsoft/todaysfish/tflite/MultiBoxTracker.kt:159-171 | The tracking loop gives the k-th candidate the k-th palette colour together with its location, confidence and title. It stops after the palette is used up, or throws on the first candidate without a title. |
| `MultiBoxTracker.Located` | TodaysFish/app/src/main/java/com/reelingsoft/todaysfish/tflite/MultiBoxTracker.kt:133-135 | The reference list of detections with a location contains only detections of the input that have one. |
| `MultiBoxTracker.Qualifying` | TodaysFish/app/src/main/java/com/reelingsoft/todaysfish/tflite/MultiBoxTracker.kt:146-149 | The reference list of trackable detections contains only located input detections that are at least the minimum size. |
| `MultiBoxTracker.SelectSpec` | TodaysFish/app/src/main/java/com/reelingsoft/todaysfish/tflite/MultiBoxTracker.kt:132-152 | With all confidences present, the first loop appends one screen rectangle per located detection, mapped by the matrix, in input order; it keeps exactly the qualifying detections as candidates, in order. |
| `MultiBoxTracker.ProcessResultsSpec` | TodaysFish/app/src/main/java/com/reelingsoft/todaysfish/tflite/MultiBoxTracker.kt:124-172 | With every located detection's confidence present and a title on each of the first min(n, 15) qualifying detections, the only titles the loop reads, the call returns normally and appends the located detections' screen rectangles. With no qualifying detection the tracked list is unchanged. Otherwise it is replaced by the first min(n, 15) qualifying detections, coloured in palette order. |
| `MultiBoxTracker.TrackedColorsDistinct` | TodaysFish/app/src/main/java/com/reelingsoft/todaysfish/tflite/MultiBoxTracker.kt:159-171 | After a successful update with qualifying detections, titled as far as the loop reads them, no two tracked objects share a colour. |
| `MultiBoxTracker.SkipsNullLocations` | TodaysFish/app/src/main/java/com/reelingsoft/todaysfish/tflite/MultiBoxTracker.kt:133-135 | Detections without a location have no effect on the outcome. |
| `MultiBoxTracker.SelectIgnoresNullLocations` | TodaysFish/app/src/main/java/com/reelingsoft/todaysfish/tflite/MultiBoxTracker.kt:132-135 | The first loop gives the same selection with and without the detections that have no location. |
| `MultiBoxTracker.NullConfidenceThrows` | TodaysFish/app/src/main/java/com/reelingsoft/todaysfish/tflite/MultiBoxTracker.kt:132-144 | A located detection with a null confidence makes the call throw `NullPointerException` with the tracked objects unchanged. When it is the first located detection without a confidence, the screen rectangles of the located detections before it have been appended, in order. |
| `MultiBoxTracker.SelectStopsOnNullConfidence` | TodaysFish/app/src/main/java/com/reelingsoft/todaysfish/tflite/MultiBoxTracker.kt:132-144 | A located detection with a null confidence stops the first loop. When it is the first located one without a confidence, the loop has added the screen rectangles of the located detections before it. |
| `MultiBoxTracker.NullTitleThrows` | TodaysFish/app/src/main/java/com/reelingsoft/todaysfish/tflite/MultiBoxTracker.kt:159-170 | When the k-th qualifying detection, k below 15, is the first without a title, the call throws `NullPointerException` at `title!!`. All located detections' screen rectangles are appended, and the tracked list holds the k qualifying detections before it, coloured in palette order. |
| `MultiBoxTracker.Rotated` | TodaysFish/app/src/main/java/com/reelingsoft/todaysfish/tflite/MultiBoxTracker.kt:80 | With Kotlin's truncating `%`, the frame is drawn rotated exactly for positive odd multiples of 90 degrees. |
| `MultiBoxTracker.CanvasGeometry` | TodaysFish/app/src/main/java/com/reelingsoft/todaysfish/tflite/MultiBoxTracker.kt:81-93 | A zero frame dimension throws `ArithmeticException`; otherwise the geometry keeps the rotation decision it was given. |
| `MultiBoxTracker.GeometryFitsCanvas` | TodaysFish/app/src/main/java/com/reelingsoft/todaysfish/tflite/MultiBoxTracker.kt:81-93 | For a non-empty frame, the destination is the multiplier times the (possibly swapped) frame, fits the canvas, and the multiplier is the largest whole number that fits. |
| `MultiBoxTracker.DrawGeometry` | TodaysFish/app/src/main/java/com/reelingsoft/todaysfish/tflite/MultiBoxTracker.kt:79-93 | As written, a drawn frame counts as rotated exactly for positive odd right-angle orientations. |
| `MultiBoxTracker.DrawGeometryCorrected` | TodaysFish/app/src/main/java/com/reelingsoft/todaysfish/tflite/MultiBoxTracker.kt:79-93 | With the corrected test, a drawn frame counts as rotated exactly when the transformation matrix transposes it. |
| `MultiBoxTracker.RotatedDisagreesWithTranspose` | TodaysFish/app/src/main/java/com/reelingsoft/todaysfish/tflite/MultiBoxTracker.kt:80 | The rotation test in drawing and the transpose in the matrix disagree exactly on negative odd multiples of 90 degrees. |
| `MultiBoxTracker.DrawGeometryMinusNinety` | TodaysFish/app/src/main/java/com/reelingsoft/todaysfish/tflite/MultiBoxTracker.kt:80-93 | At orientation -90, a 640x480 frame on a 1080x1920 canvas gets an unswapped 640x480 destination while the matrix transposes the frame to 480x640. |
| `MultiBoxTracker.CorrectedGeometryScalesUniformly` | TodaysFish/app/src/main/java/com/reelingsoft/todaysfish/tflite/MultiBoxTracker.kt:86-93 | With the corrected test, the destination is the multiplier times the extent the matrix compares it with, so both axes scale by the same factor. |
| `AddressEntity.Name` | TodaysFish/app/src/main/java/com/reelingsoft/todaysfish/entity/Address.kt:16-18 | The name neither starts nor ends with whitespace. |
| `AddressEntity.IsValidName` | TodaysFish/app/src/main/java/com/reelingsoft/todaysfish/entity/Address.kt:20-22 | A name is valid exactly when the province, district, town and village are not all blank. |
| `AddressEntity.NameBlankIffPartsBlank` | TodaysFish/app/src/main/java/com/reelingsoft/todaysfish/entity/Address.kt:16-22 | The trimmed name is blank exactly when every part is blank, with a null village counting as empty. |
| `AddressEntity.Joined` | TodaysFish/app/src/main/java/com/reelingsoft/todaysfish/entity/Address.kt:17 | The space-joined parts are blank exactly when every part is blank. |
| `AddressEntity.NullVillageIsEmptyVillage` | TodaysFish/app/src/main/java/com/reelingsoft/todaysfish/entity/Address.kt:17 | A null village and an empty village give the same name. |
| `AddressEntity.IsValidCode` | TodaysFish/app/src/main/java/com/reelingsoft/todaysfish/entity/Address.kt:24-26 | No contract of its own: the body is the positivity test. `AddressEntity.DefaultAddressIsInvalid` and `AddressEntity.SetGpsCoordinatesKeepsRest` state its properties. |
| `AddressEntity.IsValidGpsCoordinates` | TodaysFish/app/src/main/java/com/reelingsoft/todaysfish/entity/Address.kt:28-30 | No contract of its own: the body is the both-present test. `AddressEntity.ValidGpsIsSetGps` characterises it by `setGpsCoordinates`. |
| `AddressEntity.SetGpsCoordinates` | TodaysFish/app/src/main/java/com/reelingsoft/todaysfish/entity/Address.kt:32-35 | Setting coordinates stores both values and makes the coordinates valid; every other field is unchanged. |
| `AddressEntity.SetGpsCoordinatesKeepsRest` | TodaysFish/app/src/main/java/com/reelingsoft/todaysfish/entity/Address.kt:16-35 | Setting coordinates does not change the name or the name and code validity, and setting the same coordinates twice is the same as once. |
| `AddressEntity.ValidGpsIsSetGps` | TodaysFish/app/src/main/java/com/reelingsoft/todaysfish/entity/Address.kt:28-35 | An address has valid coordinates exactly when it is the result of setting some coordinates on itself. |
| `AddressEntity.DefaultAddressIsInvalid` | TodaysFish/app/src/main/java/com/reelingsoft/todaysfish/entity/Address.kt:4-30 | The default-constructed address has an empty name and invalid name, code and coordinates. |
| `KotlinText.Trim` | TodaysFish/app/src/main/java/com/reelingsoft/todaysfish/entity/Address.kt:17 | The trimmed string neither starts nor ends with whitespace. |
| `KotlinText.TrimIsMiddle` | TodaysFish/app/src/main/java/com/reelingsoft/todaysfish/entity/Address.kt:17 | `trim` returns the middle of the string between a blank prefix and a blank suffix. |
| `KotlinText.TrimEmptyIffBlank` | TodaysFish/app/src/main/java/com/reelingsoft/todaysfish/entity/Address.kt:17-21 | Trimming gives the empty string exactly when the string is blank. |
| `KotlinText.TrimKeepsBlankness` | TodaysFish/app/src/main/java/com/reelingsoft/todaysfish/entity/Address.kt:17-21 | A string is blank exactly when its trimmed form is blank. |
| `ResponseData.IsError` | TodaysFish/app/src/main/java/com/reelingsoft/todaysfish/client/ResponseData.kt:18-20 | No contract of its own: the body is the non-zero code test. `ResponseData.ErrorXorSuccess` and `ResponseData.MessageIrrelevant` state its properties. |
| `ResponseData.IsSuccess` | TodaysFish/app/src/main/java/com/reelingsoft/todaysfish/client/ResponseData.kt:22-24 | No contract of its own: the body is the zero code test. `ResponseData.ErrorXorSuccess` and `ResponseData.MessageIrrelevant` state its properties. |
| `ResponseData.ErrorXorSuccess` | TodaysFish/app/src/main/java/com/reelingsoft/todaysfish/client/ResponseData.kt:18-24 | Every response is exactly one of error and success, and success means error code 0. |
| `ResponseData.MessageIrrelevant` | TodaysFish/app/src/main/java/com/reelingsoft/todaysfish/client/ResponseData.kt:8-24 | The error message has no effect on whether a response is an error or a success. |

## Left out

- The floating-point `Matrix` operations (`postTranslate`, `postRotate`, `postScale`, `mapRect`) are out of the model. Android's graphics library is not part of it. `getTransformationMatrix` is modelled as the sequence of steps it composes, with their integer arguments and `Float` ratios as `real`.
- Float rounding, NaN and infinities in rectangles, confidences and ratios are not modelled; these values are exact `real`s. The same goes for the `Double` latitude and longitude.
- `saveBitmap` (file I/O) is left out, and so are the native library load and the empty `useNativeConversion` branches (no code runs in them).
- `AutoFitTextureView`: `MeasureSpec` decoding, `super.onMeasure`, `requestLayout` and `setMeasuredDimension` are Android framework calls. The model takes the decoded sizes and returns the measured pair.
- `MultiBoxTracker.draw`: the drawing of boxes and labels goes through Android canvas calls and is left out. Only the rotation test, the multiplier and the destination size passed to `getTransformationMatrix` are modelled (`MultiBoxTracker.DrawGeometry`). `draw` also changes state, and the model drops that effect; `DrawGeometry` returns no tracker. It stores the new matrix in `frameToCanvasMatrix` (TodaysFish/app/src/main/java/com/reelingsoft/todaysfish/tflite/MultiBoxTracker.kt:86), which `processResults` reads at line 130; the model passes that matrix to `MultiBoxTracker.ProcessResults` as its `matrix` parameter instead. And `mapRect(obj.location)` at line 96 rewrites each tracked location in place, from frame to canvas coordinates. That `RectF` is the detection's own `location`, shared since line 163, so each further `draw` without new results maps the same rectangles again. The model keeps tracked locations in frame coordinates.
- `MultiBoxTracker` init block: the paint and text-size setup is rendering only. The queue of available colours is modelled; it is never read after construction.
- `MultiBoxTracker.trackResults` only logs and delegates to `processResults`, which is modelled. The frame bytes and timestamp it passes through are unused.
- `MultiBoxTracker.OnFrame`: the model follows the six-parameter `onFrame` of TodaysFish/app/src/main/java/com/reelingsoft/todaysfish/tflite/MultiBoxTracker.kt:70. TodaysFish/app/src/main/java/com/reelingsoft/todaysfish/activity/PreviewActivity.kt:187-196 calls it with eight arguments, which this revision of the tracker does not declare.
- `@Synchronized` is left out: every operation is a single atomic state transition, so concurrency is not modelled.
- Timber logging is left out; it has no effect on state.
- `KotlinText.Trim` and blankness work on Dafny strings, which are sequences of Unicode scalar values; a Kotlin `String` is a sequence of UTF-16 code units. On well-formed text the results agree, since no supplementary character is whitespace, but a string holding a lone surrogate cannot be represented.
- `YuvConversion.ConvertYUV420SPToARGB8888` requires the input to have at most `Int.MAX_VALUE` bytes, the length bound of every JVM array. Under that bound the running chroma pointer cannot wrap before a read fails.
- `YuvConversion.PlanarBuffersLargeEnough` requires non-negative strides. Negative strides are handled by the converter's own contract (they fault), but this sufficient condition does not cover them.
- `YuvConversion.LegacyBufferIsLargeEnough` requires the semi-planar size to fit in an `Int`, as `getYUVByteSize` itself does to be meaningful.
- `AutoFitTextureView.ScaledRatioMeasuresAlike` is weaker than the doc comment's unconditional promise. It requires that no product overflows, because `AutoFitTextureView.ScaledRatioOverflows` shows the promise fails otherwise.
- `AutoFitTextureView.MeasureKeepsRatio` and `AutoFitTextureView.MeasureFitsAvailable` require a positive ratio and no overflow. Without them the measured size can wrap.
- `ImageUtils.LumaFloor` covers every `Int` whose signed value lies in [`Int.MIN_VALUE` + 16, 16]. Below that, `y - 16` wraps around. Such words convert by the general `ImageUtils.YUV2RGB` contract.
- `ImageUtils.Transpose` states the odd-right-angle test only for rotations whose `|rotation| + 90` fits in an `Int`, because `abs` of `Int.MIN_VALUE` is negative and the sum wraps. `ImageUtils.InExtent` inherits the same bound.
- `ImageUtils.GetYUVByteSize` states the size only for non-negative dimensions whose size fits in an `Int`. Beyond that the Kotlin arithmetic wraps, and the model computes the wrapped value without a contract about it.
- `MultiBoxTracker.ProcessResultsSpec` requires every located detection to have a confidence, and a title on each of the first min(n, 15) qualifying detections. Those are the only titles the second loop reads. The null cases are stated by `MultiBoxTracker.NullConfidenceThrows` and `MultiBoxTracker.NullTitleThrows`.

## Findings

| source | as written | input that shows it | evidently intended | confidence | as-written member | corrected member |
|---|---|---|---|---|---|---|
| TodaysFish/app/src/main/java/com/reelingsoft/todaysfish/tflite/MultiBoxTracker.kt:80 | `draw` decides `rotated` by `sensorOrientation % 180 == 90`, which is false for -90 and -270 with Kotlin's truncating `%`; `getTransformationMatrix` transposes for those orientations (`(abs(applyRotation) + 90) % 180 == 0`), and TodaysFish/app/src/main/java/com/reelingsoft/todaysfish/activity/PreviewActivity.kt:149 computes the orientation as a difference that can be negative | a 640x480 frame at orientation -90 on a 1080x1920 canvas: `draw` passes an unswapped 640x480 destination while the matrix transposes the frame to 480x640, so boxes are scaled by 4/3 and 3/4 instead of uniformly | `rotated` uses the same transpose test as the matrix, so the destination is a whole multiple of the rotated frame | medium; not executed | `MultiBoxTracker.DrawGeometry`, `MultiBoxTracker.DrawGeometryMinusNinety` | `MultiBoxTracker.DrawGeometryCorrected`, `MultiBoxTracker.CorrectedGeometryScalesUniformly` |
| TodaysFish/app/src/main/java/com/reelingsoft/todaysfish/tflite/MultiBoxTracker.kt:27 | `availableColors` is declared `lateinit` and never assigned, and the init block at lines 48-51 calls `availableColors.add` on it | constructing any tracker, as TodaysFish/app/src/main/java/com/reelingsoft/todaysfish/activity/PreviewActivity.kt:132 does: the first `add` throws `UninitializedPropertyAccessException` | the queue is created empty (for example `LinkedList()`) before the init block fills it with the palette | high; not executed | `MultiBoxTracker.NewTrackerAsWritten`, `MultiBoxTracker.ConstructorThrows` | `MultiBoxTracker.NewTrackerCorrected`, `MultiBoxTracker.CorrectedConstructorQueuesPalette` |

=== FILE: address.dfy ===
/** The `Address` entity: a Korean administrative address with an optional
    village and optional GPS coordinates, and its validity checks. */
module AddressEntity {
  import opened KotlinInt
  import opened KotlinNull
  import opened KotlinText

  /** `GpsCoordinates`; `Double` values are `real` here. */
  datatype GpsCoordinates = GpsCoordinates(latitude: real, longitude: real)

  /** `Address`, field for field (`obs_code` is `obsCode`). */
  datatype Address = Address(
    id: Int32,
    province: string, district: string, town: string, village: Option<string>,
    code: Int32,
    obsCode: Option<string>,
    latitude: Option<real>, longitude: Option<real>)

  /** The constructor's defaults. */
  const DEFAULT_ADDRESS: Address := Address(0, "", "", "", None, 0, Some(""), None, None)

  /** The template of `name()` before trimming: the four parts joined by
      single spaces, a null village counting as empty. Joining with single
      spaces adds no visible character, so it is blank exactly when every
      part is. */
  function Joined(a: Address): (s: string)
    ensures IsBlank(s) <==> IsBlank(a.province) && IsBlank(a.district) && IsBlank(a.town)
                            && IsBlank(Elvis(a.village, ""))
  {
    var v := Elvis(a.village, "");
    var s1 := a.province + " ";
    var s2 := s1 + a.district;
    var s3 := s2 + " ";
    var s4 := s3 + a.town;
    var s5 := s4 + " ";
    SpaceIsBlank();
    BlankJoin(a.province, " ");
    BlankJoin(s1, a.district);
    BlankJoin(s2, " ");
    BlankJoin(s3, a.town);
    BlankJoin(s4, " ");
    BlankJoin(s5, v);
    s5 + v
  }

  /** `name()`. */
  function Name(a: Address): (r: string)
    ensures r == [] || (!IsWhitespace(r[0]) && !IsWhitespace(r[|r| - 1]))
  {
    Trim(Joined(a))
  }

  /** `isValidName()`: the name is not blank, which happens exactly when
      some part of the address is not blank. */
  function IsValidName(a: Address): (b: bool)
    ensures b <==> !(IsBlank(a.province) && IsBlank(a.district) && IsBlank(a.town)
                     && IsBlank(Elvis(a.village, "")))
  {
    NameBlankIffPartsBlank(a);
    !IsBlank(Name(a))
  }

  /** The name is blank exactly when all four parts are. */
  lemma NameBlankIffPartsBlank(a: Address)
    ensures IsBlank(Name(a)) <==> IsBlank(a.province) && IsBlank(a.district) && IsBlank(a.town)
                                  && IsBlank(Elvis(a.village, ""))
  {
    TrimKeepsBlankness(Joined(a));
  }

  lemma SpaceIsBlank()
    ensures IsBlank(" ")
  {
  }

  /** A null village names the address as an empty one does. */
  lemma NullVillageIsEmptyVillage(a: Address)
    ensures Name(a.(village := None)) == Name(a.(village := Some("")))
  {
  }

  /** `isValidCode()`: a positive code. */
  function IsValidCode(a: Address): bool {
    a.code > 0
  }

  /** `isValidGpsCoordinates()`: both coordinates present. */
  function IsValidGpsCoordinates(a: Address): bool {
    a.latitude != None && a.longitude != None
  }

  /** `setGpsCoordinates(coords)`. */
  function SetGpsCoordinates(a: Address, coords: GpsCoordinates): (r: Address)
    ensures r.latitude == Some(coords.latitude) && r.longitude == Some(coords.longitude)
    ensures IsValidGpsCoordinates(r)
    ensures r.id == a.id && r.province == a.province && r.district == a.district && r.town == a.town
    ensures r.village == a.village && r.code == a.code && r.obsCode == a.obsCode
  {
    a.(latitude := Some(coords.latitude), longitude := Some(coords.longitude))
  }

  /** Setting coordinates leaves the name and the other checks as they were,
      and setting the same coordinates again changes nothing. */
  lemma SetGpsCoordinatesKeepsRest(a: Address, coords: GpsCoordinates)
    ensures Name(SetGpsCoordinates(a, coords)) == Name(a)
    ensures IsValidName(SetGpsCoordinates(a, coords)) == IsValidName(a)
    ensures IsValidCode(SetGpsCoordinates(a, coords)) == IsValidCode(a)
    ensures SetGpsCoordinates(SetGpsCoordinates(a, coords), coords) == SetGpsCoordinates(a, coords)
  {
  }

  /** An address has valid coordinates exactly when it is what setting some
      coordinates on it gives. */
  lemma ValidGpsIsSetGps(a: Address)
    ensures IsValidGpsCoordinates(a) <==> exists coords :: SetGpsCoordinates(a, coords) == a
  {
    if IsValidGpsCoordinates(a) {
      var coords := GpsCoordinates(a.latitude.value, a.longitude.value);
      assert SetGpsCoordinates(a, coords) == a;
    }
  }

  /** The default address has a blank name, no valid code and no coordinates. */
  lemma DefaultAddressIsInvalid()
    ensures Name(DEFAULT_ADDRESS) == ""
    ensures !IsValidName(DEFAULT_ADDRESS) && !IsValidCode(DEFAULT_ADDRESS)
    ensures !IsValidGpsCoordinates(DEFAULT_ADDRESS)
  {
    assert Joined(DEFAULT_ADDRESS) == "   ";
    TrimEmptyIffBlank("   ");
  }
}

=== FILE: arithmetic.dfy ===
/** Small facts of non-linear integer arithmetic, each proved on its own so
    that the solver never has to search for them inside a larger proof. */
module Arithmetic {

  lemma MulNonNegative(a: int, b: int)
    requires 0 <= a && 0 <= b
    ensures 0 <= a * b
  {
  }

  lemma MulSubtract(a: int, b: int, d: int)
    ensures a * d - b * d == (a - b) * d
  {
  }

  lemma MulAtLeastFactor(a: int, b: int)
    requires 1 <= a && 0 <= b
    ensures b <= a * b
  {
    MulSubtract(a, 1, b);
    MulNonNegative(a - 1, b);
  }

  lemma MulMonotone(a: int, b: int, d: int)
    requires a <= b && 0 <= d
    ensures a * d <= b * d
  {
    MulSubtract(b, a, d);
    MulNonNegative(b - a, d);
  }

  /** Two quotient-remainder decompositions by the same divisor agree. */
  lemma SameQuotient(q: int, m: int, q': int, m': int, d: int)
    requires 0 <= m < d && 0 <= m' < d && q * d + m == q' * d + m'
    ensures q == q'
  {
    MulSubtract(q', q, d);
    if q < q' {
      MulAtLeastFactor(q' - q, d);
    } else if q' < q {
      MulSubtract(q, q', d);
      MulAtLeastFactor(q - q', d);
    }
  }

  /** The quotient and remainder by a positive divisor are unique. */
  lemma DivModUnique(n: int, d: int, q: int, m: int)
    requires 0 <= m < d && n == q * d + m
    ensures n / d == q && n % d == m
  {
    SameQuotient(q, m, n / d, n % d, d);
  }

  /** Cell (j, i) of a row-major grid `width` wide sits at j * width + i,
      inside the grid, and division recovers its row and column. */
  lemma RowMajor(j: int, i: int, width: int, height: int)
    requires 0 <= j < height && 0 <= i < width
    ensures 0 <= j * width + i < height * width
    ensures (j * width + i) / width == j && (j * width + i) % width == i
  {
    MulNonNegative(j, width);
    MulMonotone(j + 1, height, width);
    MulSubtract(j + 1, j, width);
    DivModUnique(j * width + i, width, j, i);
  }

  /** The row of cell `q` in a row-major grid `width` wide. */
  function RowOf(q: nat, width: int): nat
    requires 0 < width
  {
    q / width
  }

  /** The column of cell `q` in a row-major grid `width` wide. */
  function ColumnOf(q: nat, width: int): (i: nat)
    requires 0 < width
    ensures i < width
  {
    q % width
  }

  /** Row-major numbering and (RowOf, ColumnOf) are inverse to each other. */
  lemma RowMajorCell(j: nat, i: nat, width: int, height: int)
    requires j < height && i < width
    ensures j * width + i < height * width
    ensures RowOf(j * width + i, width) == j && ColumnOf(j * width + i, width) == i
  {
    RowMajor(j, i, width, height);
  }

  /** A cell numbered below `height * width` lies in one of the first `height` rows. */
  lemma RowBelow(q: nat, width: int, height: int)
    requires 0 < width && q < height * width
    ensures RowOf(q, width) < height
  {
    assert q / width * width <= q;
  }

  /** A common positive factor cancels in a quotient. */
  lemma DivCancel(a: int, b: int, k: int)
    requires 0 <= a && 0 < b && 0 < k
    ensures (k * a) / (k * b) == a / b
  {
    var q, m := a / b, a % b;
    MulNonNegative(k, m);
    MulMonotone(m + 1, b, k);
    assert k * a == q * (k * b) + k * m;
    DivModUnique(k * a, k * b, q, k * m);
  }
}

=== FILE: auto_fit_texture_view.dfy ===
/**
 * `AutoFitTextureView`: a camera preview view that measures itself to the
 * largest size inside the space its parent offers that keeps a stored
 * aspect ratio, computed in Kotlin `Int` arithmetic.
 */
module AutoFitTextureView {
  import opened KotlinInt
  import opened Arithmetic

  /** The view's two ratio fields; both start at 0, meaning "no ratio". */
  datatype View = View(ratioWidth: Int32, ratioHeight: Int32)

  /** What `setAspectRatio` does: return normally with the new fields, or
      throw `IllegalArgumentException` with the fields as they were. */
  datatype SetOutcome =
    | Stored(view: View)
    | IllegalArgument(view: View, message: string)

  /** `setAspectRatio(width, height)`. */
  function SetAspectRatio(v: View, width: Int32, height: Int32): (r: SetOutcome)
    ensures r.IllegalArgument? <==> width < 0 || height < 0
    ensures r.IllegalArgument? ==> r.view == v
    ensures r.Stored? ==> r.view == View(width, height)
  {
    if width < 0 || height < 0 then IllegalArgument(v, "Size cannot be negative.")
    else Stored(View(width, height))
  }

  /** `height * ratioWidth / ratioHeight`: the width the ratio gives to the
      available height. */
  function WidthForHeight(v: View, height: Int32): Int32
    requires v.ratioHeight != 0
  {
    Div32(Wrap32(height * v.ratioWidth), v.ratioHeight)
  }

  /** `width * ratioHeight / ratioWidth`: the height the ratio gives to the
      available width. */
  function HeightForWidth(v: View, width: Int32): Int32
    requires v.ratioWidth != 0
  {
    Div32(Wrap32(width * v.ratioHeight), v.ratioWidth)
  }

  /** The dimensions `onMeasure` passes to `setMeasuredDimension`, given the
      available `width` and `height` decoded from the measure specs. */
  function OnMeasure(v: View, width: Int32, height: Int32): (r: (Int32, Int32))
    ensures r.0 == width || r.1 == height
    ensures v.ratioWidth == 0 || v.ratioHeight == 0 ==> r == (width, height)
  {
    if 0 == v.ratioWidth || 0 == v.ratioHeight then
      (width, height)
    else if width < WidthForHeight(v, height) then
      (width, HeightForWidth(v, width))
    else
      (WidthForHeight(v, height), height)
  }

  /** With a positive ratio and products that fit an `Int`, the two ratio
      computations are exact floors. */
  lemma ExactFloors(v: View, width: Int32, height: Int32)
    requires 0 < v.ratioWidth && 0 < v.ratioHeight && 0 <= width && 0 <= height
    requires height * v.ratioWidth <= INT32_MAX && width * v.ratioHeight <= INT32_MAX
    ensures WidthForHeight(v, height) == (height * v.ratioWidth) / v.ratioHeight
    ensures HeightForWidth(v, width) == (width * v.ratioHeight) / v.ratioWidth
  {
    MulNonNegative(height, v.ratioWidth);
    MulNonNegative(width, v.ratioHeight);
    TruncDivNonNegative(height * v.ratioWidth, v.ratioHeight);
    TruncDivNonNegative(width * v.ratioHeight, v.ratioWidth);
  }

  /** The measured size fits the available size. */
  lemma MeasureFitsAvailable(v: View, width: Int32, height: Int32)
    requires 0 < v.ratioWidth && 0 < v.ratioHeight && 0 <= width && 0 <= height
    requires height * v.ratioWidth <= INT32_MAX && width * v.ratioHeight <= INT32_MAX
    ensures 0 <= OnMeasure(v, width, height).0 <= width
    ensures 0 <= OnMeasure(v, width, height).1 <= height
  {
    MeasureKeepsRatio(v, width, height);
  }

  /** The measured size keeps the ratio: one side is the available side and
      the other is the largest whole number of pixels the ratio allows, as in
      `floor(width * rh / rw)` or `floor(height * rw / rh)`. The height is
      kept exactly when the width it calls for, rounded down, fits the
      available width. */
  lemma MeasureKeepsRatio(v: View, width: Int32, height: Int32)
    requires 0 < v.ratioWidth && 0 < v.ratioHeight && 0 <= width && 0 <= height
    requires height * v.ratioWidth <= INT32_MAX && width * v.ratioHeight <= INT32_MAX
    ensures var (mw, mh) := OnMeasure(v, width, height);
      || (mw == width && 0 <= mh && mh * v.ratioWidth <= width * v.ratioHeight < (mh + 1) * v.ratioWidth
          && mh <= height)
      || (mh == height && 0 <= mw && mw * v.ratioHeight <= height * v.ratioWidth < (mw + 1) * v.ratioHeight
          && mw <= width)
    ensures OnMeasure(v, width, height).1 == height
        <==> height * v.ratioWidth < (width + 1) * v.ratioHeight
  {
    ExactFloors(v, width, height);
    var rw, rh := v.ratioWidth, v.ratioHeight;
    MulNonNegative(height, rw);
    MulNonNegative(width, rh);
    var wq, hq := (height * rw) / rh, (width * rh) / rw;
    assert wq * rh <= height * rw < (wq + 1) * rh;
    assert hq * rw <= width * rh < (hq + 1) * rw;
    if width < wq {
      MulMonotone(width + 1, wq, rh);
      MulSubtract(width + 1, width, rh);
      if height <= hq {
        MulMonotone(height, hq, rw);
      }
    } else {
      MulMonotone(wq + 1, width + 1, rh);
    }
  }

  /** As the documentation of `setAspectRatio` says of (2, 3) and (4, 6):
      scaling both ratio values by the same factor measures the same, while
      the products stay within an `Int`. */
  lemma ScaledRatioMeasuresAlike(rw: Int32, rh: Int32, k: Int32, width: Int32, height: Int32)
    requires 0 < rw && 0 < rh && 0 < k && 0 <= width && 0 <= height
    requires k * rw <= INT32_MAX && k * rh <= INT32_MAX
    requires height * (k * rw) <= INT32_MAX && width * (k * rh) <= INT32_MAX
    ensures OnMeasure(View(k * rw, k * rh), width, height) == OnMeasure(View(rw, rh), width, height)
  {
    var v, u := View(rw, rh), View(k * rw, k * rh);
    MulNonNegative(height, rw);
    MulNonNegative(width, rh);
    assert height * (k * rw) == k * (height * rw);
    assert width * (k * rh) == k * (width * rh);
    MulAtLeastFactor(k, height * rw);
    MulAtLeastFactor(k, width * rh);
    ExactFloors(v, width, height);
    ExactFloors(u, width, height);
    DivCancel(height * rw, rh, k);
    DivCancel(width * rh, rw, k);
  }

  /** Without the no-overflow condition the documented scale-freedom fails:
      at an available size of 2^29 x 2^29, `height * 4` wraps to a negative
      `Int`, and the ratio (4, 6) measures a negative width where (2, 3)
      measures 357913941. */
  lemma ScaledRatioOverflows()
    ensures OnMeasure(View(2, 3), 0x2000_0000, 0x2000_0000) == (357913941, 0x2000_0000)
    ensures OnMeasure(View(4, 6), 0x2000_0000, 0x2000_0000) == (-357913941, 0x2000_0000)
  {
    assert Wrap32(0x2000_0000 * 4) == INT32_MIN;
  }
}

=== FILE: image_utils.dfy ===
/**
 * The integer core of `ImageUtils`: the fixed-point YCbCr-to-ARGB pixel
 * conversion, the byte size of a semi-planar YUV 4:2:0 buffer, and the
 * integer decisions taken while building a frame transformation matrix.
 *
 * The pixel arithmetic is modelled on the 32 bits of a Kotlin `Int` (`bv32`),
 * so its wrap-around is exact; comparisons that Kotlin makes on signed values
 * are spelled out with `Negative`.
 */
module ImageUtils {
  import opened KotlinInt
  import opened Arithmetic

  /** The 32 bits of a Kotlin `Int` holding pixel data. */
  type Word = bv32

  /** 2^18 - 1: every channel is clamped to this before it is scaled to 8 bits. */
  const MAX_CHANNEL_VALUE: Word := 262143

  /** The sign bit of a Kotlin `Int`. */
  predicate Negative(x: Word) {
    x >= 0x8000_0000
  }

  /** Kotlin's `x > k` for a non-negative constant `k`. */
  predicate SignedGreater(x: Word, k: Word)
    requires !Negative(k)
  {
    !Negative(x) && x > k
  }

  // ---------------------------------------------------------------------
  // ARGB words
  // ---------------------------------------------------------------------

  /** An 8-bit channel value. */
  type Channel = c: Word | c <= 0xFF

  /** The reference packing of four 8-bit channels into one ARGB word. */
  function Argb(a: Channel, r: Channel, g: Channel, b: Channel): Word {
    (a << 24) | (r << 16) | (g << 8) | b
  }

  function Alpha(w: Word): Channel { w >> 24 }
  function Red(w: Word): Channel { (w >> 16) & 0xFF }
  function Green(w: Word): Channel { (w >> 8) & 0xFF }
  function Blue(w: Word): Channel { w & 0xFF }

  /** Unpacking an ARGB word gives back the channels it was packed from. */
  lemma ArgbRoundTrip(a: Channel, r: Channel, g: Channel, b: Channel)
    ensures Alpha(Argb(a, r, g, b)) == a
    ensures Red(Argb(a, r, g, b)) == r
    ensures Green(Argb(a, r, g, b)) == g
    ensures Blue(Argb(a, r, g, b)) == b
  {
  }

  /** Every word is the packing of its own four channels. */
  lemma ArgbComplete(w: Word)
    ensures Argb(Alpha(w), Red(w), Green(w), Blue(w)) == w
  {
  }

  // ---------------------------------------------------------------------
  // YUV2RGB
  // ---------------------------------------------------------------------

  /** Luma with its offset of 16 removed; a negative difference counts as 0. */
  function LumaOffset(y: Word): (y2: Word)
    ensures !Negative(y2)
  {
    var d := y - 16;
    if Negative(d) then 0 else d
  }

  /** The unclamped red, green and blue sums from the luma offset and raw chroma. */
  function RawRed(y2: Word, u: Word, v: Word): Word {
    1192 * y2 + 1634 * (v - 128)
  }

  function RawGreen(y2: Word, u: Word, v: Word): Word {
    1192 * y2 - 833 * (v - 128) - 400 * (u - 128)
  }

  function RawBlue(y2: Word, u: Word, v: Word): Word {
    1192 * y2 + 2066 * (u - 128)
  }

  /** A raw channel sum clamped, as a signed value, to [0, 2^18 - 1]. */
  function Clamp18(x: Word): (c: Word)
    ensures c <= MAX_CHANNEL_VALUE
    ensures !Negative(x) && x <= MAX_CHANNEL_VALUE ==> c == x
    ensures Negative(x) ==> c == 0
    ensures !Negative(x) && MAX_CHANNEL_VALUE < x ==> c == MAX_CHANNEL_VALUE
  {
    var upper := if SignedGreater(x, MAX_CHANNEL_VALUE) then MAX_CHANNEL_VALUE else x;
    if SignedGreater(upper, 0) then upper else 0
  }

  /** The top 8 of the 18 bits of a clamped channel. */
  function Scaled(c: Word): Channel
    requires c <= MAX_CHANNEL_VALUE
  {
    c >> 10
  }

  /** The three clamped 18-bit channels of a sample, given its luma offset. */
  function ClampedRed(y2: Word, u: Word, v: Word): Word { Clamp18(RawRed(y2, u, v)) }
  function ClampedGreen(y2: Word, u: Word, v: Word): Word { Clamp18(RawGreen(y2, u, v)) }
  function ClampedBlue(y2: Word, u: Word, v: Word): Word { Clamp18(RawBlue(y2, u, v)) }

  /**
   * The packing step of the conversion. The code moves each clamped channel
   * into place with its own shift and mask; the result is the packing of
   * alpha 0xFF with each channel scaled from 18 to 8 bits.
   */
  function PackChannels(r: Word, g: Word, b: Word): (w: Word)
    requires r <= MAX_CHANNEL_VALUE && g <= MAX_CHANNEL_VALUE && b <= MAX_CHANNEL_VALUE
    ensures w == Argb(0xFF, Scaled(r), Scaled(g), Scaled(b))
  {
    ShiftMaskIsScaling(r);
    ShiftMaskIsScaling(g);
    ShiftMaskIsScaling(b);
    0xFF00_0000 | ((r << 6) & 0xFF0000) | ((g >> 2) & 0xFF00) | ((b >> 10) & 0xFF)
  }

  /** Each channel's own shift and mask puts its top 8 of 18 bits in place. */
  lemma ShiftMaskIsScaling(c: Word)
    requires c <= MAX_CHANNEL_VALUE
    ensures (c << 6) & 0xFF0000 == Scaled(c) << 16
    ensures (c >> 2) & 0xFF00 == Scaled(c) << 8
    ensures (c >> 10) & 0xFF == Scaled(c)
  {
  }

  /** `ImageUtils.YUV2RGB`: one limited-range YCbCr sample to an opaque ARGB word. */
  function YUV2RGB(y: Word, u: Word, v: Word): (w: Word)
    ensures Alpha(w) == 0xFF
    ensures Red(w) == Scaled(ClampedRed(LumaOffset(y), u, v))
    ensures Green(w) == Scaled(ClampedGreen(LumaOffset(y), u, v))
    ensures Blue(w) == Scaled(ClampedBlue(LumaOffset(y), u, v))
  {
    var y2 := LumaOffset(y);
    var r, g, b := ClampedRed(y2, u, v), ClampedGreen(y2, u, v), ClampedBlue(y2, u, v);
    ArgbRoundTrip(0xFF, Scaled(r), Scaled(g), Scaled(b));
    PackChannels(r, g, b)
  }

  /**
   * Luma at or below 16 is treated as 16. This covers every `Int` whose signed
   * value lies in [Int.MIN_VALUE + 16, 16]; below that `y - 16` wraps around.
   */
  lemma LumaFloor(y: Word, u: Word, v: Word)
    requires y <= 16 || 0x8000_0010 <= y
    ensures YUV2RGB(y, u, v) == YUV2RGB(16, u, v)
  {
    assert LumaOffset(y) == 0 == LumaOffset(16);
  }

  /** Nominal black with neutral chroma is opaque black. */
  lemma BlackIsBlack()
    ensures YUV2RGB(16, 128, 128) == 0xFF00_0000
  {
  }

  /** Nominal white with neutral chroma falls one step short of full white. */
  lemma WhiteIsNearWhite()
    ensures YUV2RGB(235, 128, 128) == 0xFFFE_FEFE
  {
  }

  // ---------------------------------------------------------------------
  // getYUVByteSize
  // ---------------------------------------------------------------------

  /** ceil(n / 2), defined by its bounds rather than by a division. */
  function CeilHalf(n: nat): (k: nat)
    ensures n <= 2 * k <= n + 1
  {
    if n % 2 == 0 then n / 2 else n / 2 + 1
  }

  /** The true byte footprint of a semi-planar 4:2:0 frame: a full-resolution
      luma plane plus one V,U byte pair per 2x2 block, odd sizes rounded up. */
  function SemiPlanarSize(width: nat, height: nat): nat {
    width * height + 2 * (CeilHalf(width) * CeilHalf(height))
  }

  /**
   * `ImageUtils.getYUVByteSize`, in Kotlin `Int` arithmetic. For non-negative
   * dimensions whose buffer size fits in an `Int`, the size is the luma plane
   * plus two bytes per (rounded-up) 2x2 block, and so never less than the
   * luma plane alone.
   */
  function GetYUVByteSize(width: Int32, height: Int32): (size: Int32)
    ensures 0 <= width && 0 <= height && SemiPlanarSize(width, height) <= INT32_MAX ==>
      size == SemiPlanarSize(width, height) && size >= width * height
  {
    var ySize := Wrap32(width * height);
    var uvSize := Wrap32(Wrap32(TruncDiv(Wrap32(width + 1), 2) * TruncDiv(Wrap32(height + 1), 2)) * 2);
    var size := Wrap32(ySize + uvSize);
    assert 0 <= width && 0 <= height && SemiPlanarSize(width, height) <= INT32_MAX ==>
      size == SemiPlanarSize(width, height) && size >= width * height
    by {
      if 0 <= width && 0 <= height && SemiPlanarSize(width, height) <= INT32_MAX {
        SizeTermsFit(width, height);
      }
    }
    size
  }

  /** For `(w + 1) / 2` on a non-negative `w` that does not overflow: ceil(w / 2). */
  lemma HalfRoundedUp(w: Int32)
    requires 0 <= w < INT32_MAX
    ensures TruncDiv(Wrap32(w + 1), 2) == CeilHalf(w)
  {
  }

  /** When the whole size fits, neither term of `getYUVByteSize` wraps around. */
  lemma SizeTermsFit(width: Int32, height: Int32)
    requires 0 <= width && 0 <= height
    requires SemiPlanarSize(width, height) <= INT32_MAX
    ensures Wrap32(width * height) == width * height
    ensures Wrap32(Wrap32(TruncDiv(Wrap32(width + 1), 2) * TruncDiv(Wrap32(height + 1), 2)) * 2)
         == 2 * (CeilHalf(width) * CeilHalf(height))
    ensures 0 <= width * height && 0 <= CeilHalf(width) * CeilHalf(height)
  {
    var area, blocks := width * height, CeilHalf(width) * CeilHalf(height);
    assert 0 <= area && 0 <= blocks && area + 2 * blocks <= INT32_MAX by {
      MulNonNegative(width, height);
      MulNonNegative(CeilHalf(width), CeilHalf(height));
    }
    var hw := TruncDiv(Wrap32(width + 1), 2);
    var hh := TruncDiv(Wrap32(height + 1), 2);
    assert hw * hh == blocks by {
      HalvesMultiply(width, height);
    }
    assert Wrap32(hw * hh) == blocks;
    assert Wrap32(blocks * 2) == 2 * blocks;
  }

  /** The two rounded-up halves multiply to the block count, even where `w + 1` overflows. */
  lemma HalvesMultiply(width: Int32, height: Int32)
    requires 0 <= width && 0 <= height
    requires SemiPlanarSize(width, height) <= INT32_MAX
    ensures TruncDiv(Wrap32(width + 1), 2) * TruncDiv(Wrap32(height + 1), 2)
         == CeilHalf(width) * CeilHalf(height)
  {
    var hw := TruncDiv(Wrap32(width + 1), 2);
    var hh := TruncDiv(Wrap32(height + 1), 2);
    if width == 0 {
      assert hw == 0 && CeilHalf(width) == 0;
    } else if height == 0 {
      assert hh == 0 && CeilHalf(height) == 0;
    } else {
      assert width < INT32_MAX && height < INT32_MAX by {
        MulAtLeastFactor(width, height);
        MulAtLeastFactor(height, width);
        MulNonNegative(CeilHalf(width), CeilHalf(height));
      }
      HalfRoundedUp(width);
      HalfRoundedUp(height);
    }
  }

  /** The worked example of an odd-sized frame. */
  lemma OddFrameByteSize()
    ensures GetYUVByteSize(641, 481) == 641 * 481 + 2 * (321 * 241)
  {
  }

  // ---------------------------------------------------------------------
  // getTransformationMatrix: the integer decisions
  // ---------------------------------------------------------------------

  /**
   * Whether the applied rotation swaps the width and height axes. For every
   * rotation whose magnitude plus 90 fits in an `Int`, the axes are swapped
   * exactly when the rotation is an odd multiple of 90 degrees, in either
   * direction.
   */
  function Transpose(applyRotation: Int32): (swap: bool)
    ensures Abs(applyRotation) + 90 <= INT32_MAX ==> (swap <==> applyRotation % 180 == 90)
  {
    var swap := TruncMod(Wrap32(Abs32(applyRotation) + 90), 180) == 0;
    assert Abs(applyRotation) + 90 <= INT32_MAX ==> (swap <==> applyRotation % 180 == 90) by {
      if Abs(applyRotation) + 90 <= INT32_MAX {
        var a := Abs(applyRotation);
        assert Abs32(applyRotation) == a;
        assert Wrap32(a + 90) == a + 90;
        assert TruncMod(a + 90, 180) == (a + 90) % 180;
      }
    }
    swap
  }

  /** The source extent after the rotation, compared with the destination:
      the swapped size for odd multiples of 90 degrees, the size itself for
      every other rotation. */
  function InExtent(srcWidth: Int32, srcHeight: Int32, applyRotation: Int32): (extent: (Int32, Int32))
    ensures Abs(applyRotation) + 90 <= INT32_MAX ==>
      extent == if applyRotation % 180 == 90 then (srcHeight, srcWidth) else (srcWidth, srcHeight)
  {
    if Transpose(applyRotation) then (srcHeight, srcWidth) else (srcWidth, srcHeight)
  }

  /** The swapped extent for the rotations a camera reports. */
  lemma RightAngleRotations(srcWidth: Int32, srcHeight: Int32)
    ensures InExtent(srcWidth, srcHeight, 0) == (srcWidth, srcHeight)
    ensures InExtent(srcWidth, srcHeight, 90) == (srcHeight, srcWidth)
    ensures InExtent(srcWidth, srcHeight, 180) == (srcWidth, srcHeight)
    ensures InExtent(srcWidth, srcHeight, 270) == (srcHeight, srcWidth)
    ensures InExtent(srcWidth, srcHeight, -90) == (srcHeight, srcWidth)
  {
  }

  /** Whether `getTransformationMatrix` logs its warning: exactly for the
      rotations that are not multiples of 90 degrees; the matrix is built
      either way. */
  function RotationWarning(applyRotation: Int32): (warn: bool)
    ensures warn <==> applyRotation % 90 != 0
  {
    var warn := applyRotation != 0 && TruncMod(applyRotation, 90) != 0;
    assert warn <==> applyRotation % 90 != 0 by {
      var q := TruncDiv(applyRotation, 90);
      var m := TruncMod(applyRotation, 90);
      assert applyRotation == q * 90 + m;
      if m == 0 {
        assert applyRotation == q * 90;
      }
    }
    warn
  }

  /** The float quotient `num / den.toFloat()`, kept symbolic. */
  datatype Ratio = Ratio(num: Int32, den: Int32)

  /** The value of a ratio whose denominator is not zero. */
  function Value(r: Ratio): real
    requires r.den != 0
  {
    r.num as real / r.den as real
  }

  /** A scale factor: one axis's ratio, or `max` of both axes' ratios. */
  datatype Factor = Quotient(ratio: Ratio) | Larger(x: Ratio, y: Ratio)

  /** A factor whose ratios all have non-zero denominators. */
  predicate Finite(f: Factor) {
    match f
    case Quotient(r) => r.den != 0
    case Larger(x, y) => x.den != 0 && y.den != 0
  }

  function FactorValue(f: Factor): real
    requires Finite(f)
  {
    match f
    case Quotient(r) => Value(r)
    case Larger(x, y) => if Value(x) >= Value(y) then Value(x) else Value(y)
  }

  /** The operations `getTransformationMatrix` composes, in order; their float
      arithmetic (`android.graphics.Matrix`) is not modelled. */
  datatype MatrixStep =
    | TranslateToOrigin(srcWidth: Int32, srcHeight: Int32)
    | Rotate(degrees: Int32)
    | Scale(x: Factor, y: Factor)
    | TranslateToDestination(dstWidth: Int32, dstHeight: Int32)

  /** The `postScale` taking an extent of inWidth x inHeight to the
      destination: per axis, or by the larger factor on both axes when the
      aspect ratio is kept. */
  function ScaleStep(inWidth: Int32, inHeight: Int32, dstWidth: Int32, dstHeight: Int32,
                     maintainAspectRatio: bool): (step: MatrixStep)
    ensures step.Scale?
    ensures maintainAspectRatio ==> step.x == step.y
  {
    var sx, sy := Ratio(dstWidth, inWidth), Ratio(dstHeight, inHeight);
    if maintainAspectRatio then Scale(Larger(sx, sy), Larger(sx, sy)) else Scale(Quotient(sx), Quotient(sy))
  }

  /**
   * For a non-empty extent the scale maps it onto the destination: exactly
   * on both axes when the aspect ratio is free; otherwise by one factor that
   * covers the destination on both axes and meets it on one of them.
   */
  lemma ScaleFillsDestination(inWidth: Int32, inHeight: Int32, dstWidth: Int32, dstHeight: Int32,
                              maintainAspectRatio: bool)
    requires 0 < inWidth && 0 < inHeight
    ensures var s := ScaleStep(inWidth, inHeight, dstWidth, dstHeight, maintainAspectRatio);
      && Finite(s.x) && Finite(s.y)
      && (!maintainAspectRatio ==>
            && FactorValue(s.x) * inWidth as real == dstWidth as real
            && FactorValue(s.y) * inHeight as real == dstHeight as real)
      && (maintainAspectRatio ==>
            && FactorValue(s.x) * inWidth as real >= dstWidth as real
            && FactorValue(s.x) * inHeight as real >= dstHeight as real
            && (FactorValue(s.x) * inWidth as real == dstWidth as real
                || FactorValue(s.x) * inHeight as real == dstHeight as real))
  {
    var w, h := inWidth as real, inHeight as real;
    var fx, fy := dstWidth as real / w, dstHeight as real / h;
    assert fx * w == dstWidth as real && fy * h == dstHeight as real;
    var f := if fx >= fy then fx else fy;
    assert f * w >= fx * w && f * h >= fy * h;
  }

  /**
   * The composition `getTransformationMatrix` builds, in order: move the
   * source centre to the origin and rotate, when there is a rotation; scale,
   * exactly when the rotated source extent differs from the destination;
   * move into the destination frame, when there was a rotation. Nothing else
   * is composed.
   */
  function TransformationSteps(srcWidth: Int32, srcHeight: Int32, dstWidth: Int32, dstHeight: Int32,
                               applyRotation: Int32, maintainAspectRatio: bool): (steps: seq<MatrixStep>)
    ensures |steps| == (if applyRotation != 0 then 3 else 0)
                     + (if InExtent(srcWidth, srcHeight, applyRotation) != (dstWidth, dstHeight) then 1 else 0)
    ensures applyRotation != 0 ==>
      && steps[0] == TranslateToOrigin(srcWidth, srcHeight)
      && steps[1] == Rotate(applyRotation)
      && steps[|steps| - 1] == TranslateToDestination(dstWidth, dstHeight)
    ensures applyRotation == 0 ==> forall k :: 0 <= k < |steps| ==> steps[k].Scale?
    ensures (exists k :: 0 <= k < |steps| && steps[k].Scale?)
        <==> InExtent(srcWidth, srcHeight, applyRotation) != (dstWidth, dstHeight)
    ensures InExtent(srcWidth, srcHeight, applyRotation) != (dstWidth, dstHeight) ==>
      var (inWidth, inHeight) := InExtent(srcWidth, srcHeight, applyRotation);
      steps[if applyRotation != 0 then 2 else 0]
        == ScaleStep(inWidth, inHeight, dstWidth, dstHeight, maintainAspectRatio)
    ensures forall k :: 0 <= k < |steps| && steps[k].Scale? ==>
      var (inWidth, inHeight) := InExtent(srcWidth, srcHeight, applyRotation);
      steps[k] == ScaleStep(inWidth, inHeight, dstWidth, dstHeight, maintainAspectRatio)
  {
    var (inWidth, inHeight) := InExtent(srcWidth, srcHeight, applyRotation);
    var rotate := if applyRotation != 0
      then [TranslateToOrigin(srcWidth, srcHeight), Rotate(applyRotation)] else [];
    var scale := if inWidth != dstWidth || inHeight != dstHeight
      then [ScaleStep(inWidth, inHeight, dstWidth, dstHeight, maintainAspectRatio)] else [];
    var back := if applyRotation != 0 then [TranslateToDestination(dstWidth, dstHeight)] else [];
    assert |scale| == 1 ==> (rotate + scale + back)[|rotate|] == scale[0];
    rotate + scale + back
  }

  /** An unrotated 640x480 frame scaled to 320x240 is a plain per-axis scale. */
  lemma UnrotatedHalving()
    ensures TransformationSteps(640, 480, 320, 240, 0, false)
         == [Scale(Quotient(Ratio(320, 640)), Quotient(Ratio(240, 480)))]
  {
    RightAngleRotations(640, 480);
  }

  /** A 640x480 frame rotated by 90 degrees onto 240x320 scales its swapped axes. */
  lemma QuarterTurnHalving()
    ensures TransformationSteps(640, 480, 240, 320, 90, false)
         == [TranslateToOrigin(640, 480), Rotate(90),
             Scale(Quotient(Ratio(240, 480)), Quotient(Ratio(320, 640))), TranslateToDestination(240, 320)]
  {
    RightAngleRotations(640, 480);
  }
}

=== FILE: kotlin_int.dfy ===
/**
 * Kotlin `Int` arithmetic: 32-bit two's complement values whose `+`, `-` and
 * `*` wrap around, and whose `/` and `%` truncate toward zero (unlike Dafny's
 * Euclidean `/` and `%`).
 */
module KotlinInt {

  const INT32_MIN: int := -0x8000_0000
  const INT32_MAX: int := 0x7FFF_FFFF
  const TWO_POW_32: int := 0x1_0000_0000

  /** The values a Kotlin `Int` can hold. */
  type Int32 = x: int | INT32_MIN <= x <= INT32_MAX

  /** The Kotlin `Int` a mathematically exact result is stored as. */
  function Wrap32(x: int): (r: Int32)
    ensures (r - x) % TWO_POW_32 == 0
    ensures INT32_MIN <= x <= INT32_MAX ==> r == x
  {
    (x - INT32_MIN) % TWO_POW_32 + INT32_MIN
  }

  /** Kotlin's `a / b` on non-zero `b`: the quotient rounded toward zero. */
  function TruncDiv(a: int, b: int): (q: int)
    requires b != 0
    ensures 0 <= a ==> 0 < b ==> 0 <= q * b <= a < q * b + b
    ensures (a < 0) == (b < 0) || a == 0 ==> 0 <= q
    ensures (a < 0) != (b < 0) ==> q <= 0
  {
    if (a < 0) == (b < 0) then Abs(a) / Abs(b) else -(Abs(a) / Abs(b))
  }

  /** Kotlin's `a % b` on non-zero `b`: the remainder takes the sign of `a`. */
  function TruncMod(a: int, b: int): (m: int)
    requires b != 0
    ensures a == TruncDiv(a, b) * b + m
    ensures 0 <= a ==> 0 <= m < Abs(b)
    ensures a < 0 ==> -(Abs(b) as int) < m <= 0
  {
    a - TruncDiv(a, b) * b
  }

  function Abs(x: int): nat {
    if x < 0 then -x else x
  }

  /** Kotlin's `abs` on `Int`: `abs(Int.MIN_VALUE)` is `Int.MIN_VALUE` itself. */
  function Abs32(x: Int32): (r: Int32)
    ensures x != INT32_MIN ==> r == Abs(x)
    ensures x == INT32_MIN ==> r == INT32_MIN
  {
    if x < 0 then Wrap32(-(x as int)) else x
  }

  /** Kotlin's `a / b` on `Int`: `Int.MIN_VALUE / -1` wraps back to `Int.MIN_VALUE`. */
  function Div32(a: Int32, b: Int32): Int32
    requires b != 0
  {
    Wrap32(TruncDiv(a, b))
  }

  /** On non-negative operands Kotlin's and Dafny's division agree. */
  lemma TruncDivNonNegative(a: Int32, b: Int32)
    requires 0 <= a && 0 < b
    ensures TruncDiv(a, b) == a / b && Div32(a, b) == a / b
  {
  }
}

=== FILE: kotlin_null.dfy ===
/** Kotlin nullable values: `T?` is `Option<T>`, `null` is `None`. */
module KotlinNull {

  datatype Option<T> = None | Some(value: T)

  /** Kotlin's `x ?: fallback`. */
  function Elvis<T>(x: Option<T>, fallback: T): (r: T)
    ensures x.Some? ==> r == x.value
    ensures x.None? ==> r == fallback
  {
    match x
    case Some(v) => v
    case None => fallback
  }
}

=== FILE: kotlin_text.dfy ===
/**
 * The parts of Kotlin's `String` library the entities use: `isWhitespace`,
 * `trim()` and `isBlank()`.
 */
module KotlinText {

  /** `Char.isWhitespace()`: Java's `isWhitespace` or `isSpaceChar`, that is
      the controls U+0009..U+000D and U+001C..U+001F plus every Unicode space,
      line and paragraph separator. */
  predicate IsWhitespace(c: char) {
    || '\U{9}' <= c <= '\U{D}'
    || '\U{1C}' <= c <= '\U{20}'
    || c == '\U{A0}' || c == '\U{1680}'
    || '\U{2000}' <= c <= '\U{200A}'
    || c == '\U{2028}' || c == '\U{2029}' || c == '\U{202F}' || c == '\U{205F}' || c == '\U{3000}'
  }

  /** `isBlank()`: empty or whitespace only. */
  predicate IsBlank(s: string) {
    forall k :: 0 <= k < |s| ==> IsWhitespace(s[k])
  }

  /** The number of whitespace characters `s` starts with. */
  function LeadingSpace(s: string): (n: nat)
    ensures n <= |s|
  {
    if |s| == 0 || !IsWhitespace(s[0]) then 0 else 1 + LeadingSpace(s[1..])
  }

  /** The number of whitespace characters `s` ends with. */
  function TrailingSpace(s: string): (n: nat)
    ensures n <= |s|
  {
    if |s| == 0 || !IsWhitespace(s[|s| - 1]) then 0 else 1 + TrailingSpace(s[..|s| - 1])
  }

  /** `trim()`: `s` without its leading and trailing whitespace. */
  function Trim(s: string): (r: string)
    ensures r == [] || (!IsWhitespace(r[0]) && !IsWhitespace(r[|r| - 1]))
  {
    var a := LeadingSpace(s);
    var t := s[a..];
    LeadingSpaceIsMaximal(s);
    TrailingSpaceIsMaximal(t);
    t[..|t| - TrailingSpace(t)]
  }

  /** The leading count covers a blank prefix and stops at the first visible
      character. */
  lemma {:induction false} LeadingSpaceIsMaximal(s: string)
    ensures IsBlank(s[..LeadingSpace(s)])
    ensures LeadingSpace(s) < |s| ==> !IsWhitespace(s[LeadingSpace(s)])
  {
    if |s| > 0 && IsWhitespace(s[0]) {
      var n := LeadingSpace(s[1..]);
      LeadingSpaceIsMaximal(s[1..]);
      forall k | 0 <= k < n + 1 ensures IsWhitespace(s[k]) {
        if k > 0 {
          assert s[k] == s[1..][..n][k - 1];
        }
      }
      assert n < |s| - 1 ==> s[n + 1] == s[1..][n];
    }
  }

  /** The trailing count covers a blank suffix and stops at the last visible
      character. */
  lemma {:induction false} TrailingSpaceIsMaximal(s: string)
    ensures IsBlank(s[|s| - TrailingSpace(s)..])
    ensures TrailingSpace(s) < |s| ==> !IsWhitespace(s[|s| - 1 - TrailingSpace(s)])
  {
    if |s| > 0 && IsWhitespace(s[|s| - 1]) {
      var p := s[..|s| - 1];
      var n := TrailingSpace(p);
      TrailingSpaceIsMaximal(p);
      forall k | |s| - n - 1 <= k < |s| ensures IsWhitespace(s[k]) {
        if k < |s| - 1 {
          assert s[k] == p[|p| - n..][k - (|p| - n)];
        }
      }
      assert n < |p| ==> s[|s| - 2 - n] == p[|p| - 1 - n];
    }
  }

  /** A concatenation is blank exactly when both parts are. */
  lemma BlankJoin(x: string, y: string)
    ensures IsBlank(x + y) <==> IsBlank(x) && IsBlank(y)
  {
    if IsBlank(x + y) {
      forall k | 0 <= k < |x| ensures IsWhitespace(x[k]) {
        assert x[k] == (x + y)[k];
      }
      forall k | 0 <= k < |y| ensures IsWhitespace(y[k]) {
        assert y[k] == (x + y)[|x| + k];
      }
    }
  }

  /** `trim()` drops only whitespace: it keeps the contiguous middle of `s`
      that starts after the leading whitespace, and everything around that
      middle is whitespace. */
  lemma TrimIsMiddle(s: string)
    ensures var r, a := Trim(s), LeadingSpace(s);
      a + |r| <= |s| && r == s[a..a + |r|] && IsBlank(s[..a]) && IsBlank(s[a + |r|..])
  {
    var a := LeadingSpace(s);
    var t := s[a..];
    var r := Trim(s);
    LeadingSpaceIsMaximal(s);
    TrailingSpaceIsMaximal(t);
    assert r == t[..|t| - TrailingSpace(t)];
    assert s[a + |r|..] == t[|r|..];
  }

  /** A string is blank exactly when its trim is empty. */
  lemma TrimEmptyIffBlank(s: string)
    ensures Trim(s) == [] <==> IsBlank(s)
  {
    var a := LeadingSpace(s);
    var t := s[a..];
    var n := |t| - TrailingSpace(t);
    assert Trim(s) == t[..n];
    if n == 0 {
      LeadingSpaceIsMaximal(s);
      TrailingSpaceIsMaximal(t);
      assert t[n..] == t;
      assert s == s[..a] + t;
      BlankJoin(s[..a], t);
    } else {
      assert Trim(s)[0] == s[a];
    }
  }

  /** `trim()` does not change blankness. */
  lemma TrimKeepsBlankness(s: string)
    ensures IsBlank(Trim(s)) <==> IsBlank(s)
  {
    TrimEmptyIffBlank(s);
  }
}

=== FILE: multi_box_tracker.dfy ===
/**
 * `MultiBoxTracker`: keeps the detections of the latest frame worth drawing
 * (each with a colour of its own) and the screen rectangles of every located
 * detection, and computes the frame-to-canvas geometry when drawing.
 *
 * Rectangles hold `real` coordinates in place of `Float`; the frame-to-canvas
 * `Matrix` is a mapping of rectangles supplied by the caller.
 */
module MultiBoxTracker {
  import opened KotlinInt
  import opened KotlinNull
  import opened Arithmetic
  import ImageUtils

  /** An ARGB colour. */
  type Color = bv32

  /** A `RectF`. */
  datatype Rect = Rect(left: real, top: real, right: real, bottom: real) {
    function Width(): real { right - left }
    function Height(): real { bottom - top }
  }

  /** A `Detector.Recognition`: every field may be null. */
  datatype Recognition = Recognition(
    id: Option<string>, title: Option<string>, confidence: Option<real>, location: Option<Rect>)

  /** A `TrackedRecognition`. */
  datatype TrackedRecognition = TrackedRecognition(location: Rect, confidence: real, color: Color, title: string)

  /** An entry of `screenRects`: a confidence and the detection mapped to the screen. */
  datatype ScreenRect = ScreenRect(confidence: real, rect: Rect)

  /** The tracker's state. */
  datatype Tracker = Tracker(
    trackedObjects: seq<TrackedRecognition>,
    screenRects: seq<ScreenRect>,
    frameWidth: Int32, frameHeight: Int32, sensorOrientation: Int32,
    initialized: bool)

  /** The state the property initialisers give a new tracker. */
  const NEW_TRACKER: Tracker := Tracker([], [], 0, 0, 0, false)

  /** The colours handed out to tracked objects, in order. */
  const COLORS: seq<Color> := [
    0xFF00_00FF, // Color.BLUE
    0xFFFF_0000, // Color.RED
    0xFF00_FF00, // Color.GREEN
    0xFFFF_FF00, // Color.YELLOW
    0xFF00_FFFF, // Color.CYAN
    0xFFFF_00FF, // Color.MAGENTA
    0xFFFF_FFFF, // Color.WHITE
    0xFF55_FF55, 0xFFFF_A500, 0xFFFF_8888, 0xFFAA_AAFF,
    0xFFFF_FFAA, 0xFF55_AAAA, 0xFFAA_33AA, 0xFF0D_0068
  ]

  /** Detections narrower or lower than this, in frame pixels, are not tracked. */
  const DETECT_MIN_SIZE: real := 16.0

  /** The exceptions the tracker's code can raise. */
  datatype Failure =
    | NullPointer            // `!!` on a null field
    | UninitializedProperty  // a `lateinit` read before assignment: `frameToCanvasMatrix`
                             // before the first `draw`, `availableColors` in the init block
    | DivideByZero           // integer division by a zero frame size

  /** A call that returns normally, or throws with the state as the throw leaves it. */
  datatype Outcome = Returned(tracker: Tracker) | Threw(tracker: Tracker, failure: Failure)

  /** The frame-to-canvas transformation, applied to a rectangle. */
  type Mapping = Rect -> Rect

  lemma ColorsDistinct()
    ensures |COLORS| == 15
    ensures forall k, l :: 0 <= k < l < |COLORS| ==> COLORS[k] != COLORS[l]
  {
  }

  // ---------------------------------------------------------------------
  // construction: the init block
  // ---------------------------------------------------------------------

  /** A new tracker with its queue of available colours (`None` while the
      `lateinit` queue is unassigned), or the exception construction throws. */
  datatype Construction =
    | Constructed(tracker: Tracker, availableColors: Option<seq<Color>>)
    | ConstructorThrew(failure: Failure)

  /** The init block's loop, `availableColors.add(color)` for each colour in
      turn: adding to an unassigned queue throws; adding to a queue appends. */
  function AddColors(queue: Option<seq<Color>>, colors: seq<Color>): (r: Construction)
    ensures queue.None? && |colors| > 0 ==> r == ConstructorThrew(UninitializedProperty)
    ensures queue.Some? ==> r == Constructed(NEW_TRACKER, Some(queue.value + colors))
    decreases |colors|
  {
    if |colors| == 0 then
      assert queue.Some? ==> queue.value + colors == queue.value;
      Constructed(NEW_TRACKER, queue)
    else
      match queue
      case None => ConstructorThrew(UninitializedProperty)
      case Some(q) =>
        assert (q + [colors[0]]) + colors[1..] == q + colors;
        AddColors(Some(q + [colors[0]]), colors[1..])
  }

  /** Construction as written: `availableColors` is declared `lateinit` and
      never assigned, and the init block adds the palette to it. */
  function NewTrackerAsWritten(): Construction {
    AddColors(None, COLORS)
  }

  /** Construction with the queue created empty before the init block runs. */
  function NewTrackerCorrected(): Construction {
    AddColors(Some([]), COLORS)
  }

  /** As written, every construction of a tracker throws
      `UninitializedPropertyAccessException` at the first `add`. */
  lemma ConstructorThrows()
    ensures NewTrackerAsWritten() == ConstructorThrew(UninitializedProperty)
  {
  }

  /** With the queue created first, construction succeeds with an empty
      tracker and queues the 15 palette colours, in order and without
      repetition. */
  lemma CorrectedConstructorQueuesPalette()
    ensures NewTrackerCorrected() == Constructed(NEW_TRACKER, Some(COLORS))
    ensures var queue := NewTrackerCorrected().availableColors.value;
      forall k, l :: 0 <= k < l < |queue| ==> queue[k] != queue[l]
  {
    assert [] + COLORS == COLORS;
    ColorsDistinct();
  }

  // ---------------------------------------------------------------------
  // onFrame
  // ---------------------------------------------------------------------

  /** `onFrame`: records the frame's size and orientation; the row stride,
      the frame's bytes and its timestamp are not used. */
  function OnFrame(t: Tracker, width: Int32, height: Int32, rowStride: Int32, orientation: Int32,
                   frame: seq<bv8>, timestamp: int): (r: Tracker)
    ensures r.initialized
    ensures r.frameWidth == width && r.frameHeight == height && r.sensorOrientation == orientation
    ensures r.trackedObjects == t.trackedObjects && r.screenRects == t.screenRects
  {
    t.(frameWidth := width, frameHeight := height, sensorOrientation := orientation, initialized := true)
  }

  /** `onFrame` depends only on the size and orientation, and repeating it changes nothing. */
  lemma OnFrameIgnoresRest(t: Tracker, width: Int32, height: Int32, orientation: Int32,
                           rowStride: Int32, frame: seq<bv8>, timestamp: int,
                           rowStride': Int32, frame': seq<bv8>, timestamp': int)
    ensures OnFrame(t, width, height, rowStride, orientation, frame, timestamp)
         == OnFrame(t, width, height, rowStride', orientation, frame', timestamp')
    ensures var once := OnFrame(t, width, height, rowStride, orientation, frame, timestamp);
      OnFrame(once, width, height, rowStride, orientation, frame, timestamp) == once
  {
  }

  // ---------------------------------------------------------------------
  // processResults
  // ---------------------------------------------------------------------

  /** A located detection kept for tracking: `Pair(confidence, recognition)`,
      with the location known to be non-null. */
  datatype Candidate = Candidate(confidence: real, location: Rect, title: Option<string>)

  /** What the first loop of `processResults` produces: the screen rectangles
      it appended, the candidates to track, and whether it stopped on a null
      confidence. */
  datatype Selection = Selection(added: seq<ScreenRect>, toTrack: seq<Candidate>, nullConfidence: bool)

  /** A detection too small to track. */
  predicate Degenerate(r: Rect) {
    r.Width() < DETECT_MIN_SIZE || r.Height() < DETECT_MIN_SIZE
  }

  /** The first loop of `processResults`: skip null locations, append the
      screen rectangle of every other detection, keep the non-degenerate ones. */
  function Select(results: seq<Recognition>, toScreen: Mapping): (s: Selection)
    ensures |s.toTrack| <= |s.added|
    ensures forall k :: 0 <= k < |s.toTrack| ==> !Degenerate(s.toTrack[k].location)
    ensures s.nullConfidence ==> s.toTrack == []
  {
    if |results| == 0 then Selection([], [], false)
    else
      var r := results[0];
      if r.location.None? then Select(results[1..], toScreen)
      else if r.confidence.None? then Selection([], [], true)
      else
        var rest := Select(results[1..], toScreen);
        var added := [ScreenRect(r.confidence.value, toScreen(r.location.value))] + rest.added;
        if rest.nullConfidence then Selection(added, [], true)
        else if Degenerate(r.location.value) then Selection(added, rest.toTrack, false)
        else Selection(added, [Candidate(r.confidence.value, r.location.value, r.title)] + rest.toTrack, false)
  }

  /** The second loop of `processResults`, after `trackedObjects.clear()`:
      append each candidate with the next colour, stopping once every colour
      is used; `true` alongside when a null title threw. */
  function Track(candidates: seq<Candidate>, tracked: seq<TrackedRecognition>): (r: (seq<TrackedRecognition>, bool))
    requires |tracked| < |COLORS|
    ensures tracked <= r.0 && |r.0| <= |COLORS|
    ensures r.1 ==> |r.0| < |COLORS|
    decreases |candidates|
  {
    if |candidates| == 0 then (tracked, false)
    else
      var c := candidates[0];
      if c.title.None? then (tracked, true)
      else
        var next := tracked + [TrackedRecognition(c.location, c.confidence, COLORS[|tracked|], c.title.value)];
        if |next| >= |COLORS| then (next, false)
        else Track(candidates[1..], next)
  }

  /** `processResults`, given the frame-to-canvas matrix if `draw` has set it. */
  function ProcessResults(t: Tracker, results: seq<Recognition>, matrix: Option<Mapping>): (r: Outcome)
    ensures matrix.None? ==> r == Threw(t, UninitializedProperty)
    ensures r.tracker == t.(trackedObjects := r.tracker.trackedObjects, screenRects := r.tracker.screenRects)
    ensures t.screenRects <= r.tracker.screenRects
    ensures r.tracker.trackedObjects == t.trackedObjects
         || (|r.tracker.trackedObjects| <= |COLORS| && Trackable(r.tracker.trackedObjects))
  {
    if matrix.None? then Threw(t, UninitializedProperty)
    else
      var s := Select(results, matrix.value);
      var t1 := t.(screenRects := t.screenRects + s.added);
      if s.nullConfidence then Threw(t1, NullPointer)
      else if |s.toTrack| == 0 then Returned(t1)
      else
        var (tracked, threw) := Track(s.toTrack, []);
        TrackKeepsTrackable(s.toTrack, []);
        var t2 := t1.(trackedObjects := tracked);
        if threw then Threw(t2, NullPointer) else Returned(t2)
  }

  /** No tracked object is too small to track. */
  predicate Trackable(tracked: seq<TrackedRecognition>) {
    forall k :: 0 <= k < |tracked| ==> !Degenerate(tracked[k].location)
  }

  /** Tracking candidates that are not degenerate keeps the list trackable. */
  lemma {:induction false} TrackKeepsTrackable(candidates: seq<Candidate>, tracked: seq<TrackedRecognition>)
    requires |tracked| < |COLORS|
    requires forall k :: 0 <= k < |candidates| ==> !Degenerate(candidates[k].location)
    requires Trackable(tracked)
    ensures Trackable(Track(candidates, tracked).0)
    decreases |candidates|
  {
    if |candidates| > 0 && candidates[0].title.Some? {
      var c := candidates[0];
      var next := tracked + [TrackedRecognition(c.location, c.confidence, COLORS[|tracked|], c.title.value)];
      assert Trackable(next) by {
        forall k | 0 <= k < |next| ensures !Degenerate(next[k].location) {
          if k < |tracked| { assert next[k] == tracked[k]; }
        }
      }
      if |next| < |COLORS| {
        TrackKeepsTrackable(candidates[1..], next);
      }
    }
  }

  /** `out`, from position `start` on, holds the first `n` candidates in
      order, each with a title and with the colour at its position. */
  predicate TrackedAs(out: seq<TrackedRecognition>, start: nat, candidates: seq<Candidate>, n: nat) {
    && start + n <= |out| && start + n <= |COLORS| && n <= |candidates|
    && forall k :: 0 <= k < n ==>
         && candidates[k].title.Some?
         && out[start + k] == TrackedRecognition(candidates[k].location, candidates[k].confidence,
                                                 COLORS[start + k], candidates[k].title.value)
  }

  /** What `Track` appends: the candidates in order, the k-th appended one
      taking the colour after the ones already used, until the colours run
      out, the candidates run out, or a null title throws. */
  lemma {:induction false} TrackSpec(candidates: seq<Candidate>, tracked: seq<TrackedRecognition>)
    requires |tracked| < |COLORS|
    ensures TrackedFrom(candidates, |tracked|, Track(candidates, tracked).0, Track(candidates, tracked).1)
    decreases |candidates|
  {
    if |candidates| == 0 || candidates[0].title.None? {
    } else {
      var c := candidates[0];
      var next := tracked + [TrackedRecognition(c.location, c.confidence, COLORS[|tracked|], c.title.value)];
      if |next| < |COLORS| {
        TrackSpec(candidates[1..], next);
        var (out, threw) := Track(candidates[1..], next);
        assert Track(candidates, tracked) == (out, threw);
        assert out[|tracked|] == next[|tracked|];
        TrackedFromCons(candidates, |tracked|, out, threw);
      } else {
        assert Track(candidates, tracked) == (next, false);
        assert next[|tracked| + 0] == next[|tracked|];
      }
    }
  }

  /** What `Track` appends after position `start` of `out`: the candidates
      in order with the colours from `start` on, until the colours run out,
      the candidates run out, or (when `threw`) a null title. */
  predicate TrackedFrom(candidates: seq<Candidate>, start: nat, out: seq<TrackedRecognition>, threw: bool) {
    var n := |out| - start;
    && start <= |out|
    && TrackedAs(out, start, candidates, n)
    && (threw ==> n < |candidates| && candidates[n].title.None?)
    && (!threw ==> n == Min(|candidates|, |COLORS| - start))
  }

  /** A first candidate tracked at `start` extends the run tracked after it. */
  lemma TrackedFromCons(candidates: seq<Candidate>, start: nat, out: seq<TrackedRecognition>, threw: bool)
    requires 0 < |candidates| && start + 1 < |COLORS|
    requires candidates[0].title.Some?
    requires start < |out| && out[start] == TrackedRecognition(candidates[0].location, candidates[0].confidence,
                                                               COLORS[start], candidates[0].title.value)
    requires TrackedFrom(candidates[1..], start + 1, out, threw)
    ensures TrackedFrom(candidates, start, out, threw)
  {
    var n := |out| - start;
    TrackedAsCons(out, start, candidates, n);
    if threw {
      assert candidates[n] == candidates[1..][n - 1];
    }
  }

  /** One more candidate in front of a tracked run. */
  lemma TrackedAsCons(out: seq<TrackedRecognition>, start: nat, candidates: seq<Candidate>, n: nat)
    requires 0 < n && 0 < |candidates| && start < |COLORS|
    requires candidates[0].title.Some?
    requires start < |out| && out[start] == TrackedRecognition(candidates[0].location, candidates[0].confidence,
                                                               COLORS[start], candidates[0].title.value)
    requires TrackedAs(out, start + 1, candidates[1..], n - 1)
    ensures TrackedAs(out, start, candidates, n)
  {
    forall k | 0 < k < n
      ensures candidates[k].title.Some?
      ensures out[start + k] == TrackedRecognition(candidates[k].location, candidates[k].confidence,
                                                   COLORS[start + k], candidates[k].title.value)
    {
      assert candidates[k] == candidates[1..][k - 1];
      assert out[start + 1 + (k - 1)] == out[start + k];
    }
  }

  function Min(a: int, b: int): int {
    if a < b then a else b
  }

  // ---------------------------------------------------------------------
  // processResults against a reference: filters of the input
  // ---------------------------------------------------------------------

  /** The detections with a location, in input order. */
  function Located(results: seq<Recognition>): (l: seq<Recognition>)
    ensures forall r | r in l :: r in results && r.location.Some?
    ensures |l| <= |results|
  {
    if |results| == 0 then []
    else (if results[0].location.Some? then [results[0]] else []) + Located(results[1..])
  }

  /** The detections with a location that is not degenerate, in input order. */
  function Qualifying(results: seq<Recognition>): (q: seq<Recognition>)
    ensures forall r | r in q :: r in results && r.location.Some? && !Degenerate(r.location.value)
  {
    if |results| == 0 then []
    else
      var r := results[0];
      (if r.location.Some? && !Degenerate(r.location.value) then [r] else []) + Qualifying(results[1..])
  }

  /** Every located detection carries a confidence. */
  predicate ConfidencesPresent(results: seq<Recognition>) {
    forall r | r in results :: r.location.Some? ==> r.confidence.Some?
  }

  /** `added` holds, in order, the screen rectangle of each detection of `l`. */
  predicate ScreenRectsOf(added: seq<ScreenRect>, l: seq<Recognition>, toScreen: Mapping) {
    && |added| == |l|
    && forall k :: 0 <= k < |l| ==>
         && l[k].confidence.Some? && l[k].location.Some?
         && added[k] == ScreenRect(l[k].confidence.value, toScreen(l[k].location.value))
  }

  /** `toTrack` holds, in order, one candidate for each detection of `q`. */
  predicate CandidatesOf(toTrack: seq<Candidate>, q: seq<Recognition>) {
    && |toTrack| == |q|
    && forall k :: 0 <= k < |q| ==>
         && q[k].confidence.Some? && q[k].location.Some?
         && toTrack[k] == Candidate(q[k].confidence.value, q[k].location.value, q[k].title)
  }

  /** `tracked` is a prefix of `q`, the k-th detection coloured `COLORS[k]`. */
  predicate ColouredPrefix(tracked: seq<TrackedRecognition>, q: seq<Recognition>) {
    && |tracked| <= |q| && |tracked| <= |COLORS|
    && forall k :: 0 <= k < |tracked| ==>
         && q[k].confidence.Some? && q[k].location.Some? && q[k].title.Some?
         && tracked[k] == TrackedRecognition(q[k].location.value, q[k].confidence.value, COLORS[k], q[k].title.value)
  }

  /** The first loop, against the filters: one screen rectangle per located
      detection and one candidate per qualifying detection, in order. */
  lemma {:induction false} SelectSpec(results: seq<Recognition>, toScreen: Mapping)
    requires ConfidencesPresent(results)
    ensures var s := Select(results, toScreen);
      && !s.nullConfidence
      && ScreenRectsOf(s.added, Located(results), toScreen)
      && CandidatesOf(s.toTrack, Qualifying(results))
    decreases |results|
  {
    if |results| > 0 {
      var rest := results[1..];
      assert ConfidencesPresent(rest) by {
        forall r | r in rest ensures r.location.Some? ==> r.confidence.Some? {
          assert r in results;
        }
      }
      SelectSpec(rest, toScreen);
      var r := results[0];
      var s, s' := Select(rest, toScreen), Select(results, toScreen);
      if r.location.Some? {
        assert r in results;
        var screen := ScreenRect(r.confidence.value, toScreen(r.location.value));
        assert s'.added == [screen] + s.added;
        assert Located(results) == [r] + Located(rest);
        ScreenRectsCons(s.added, Located(rest), r, toScreen);
        if !Degenerate(r.location.value) {
          assert s'.toTrack == [Candidate(r.confidence.value, r.location.value, r.title)] + s.toTrack;
          assert Qualifying(results) == [r] + Qualifying(rest);
          CandidatesCons(s.toTrack, Qualifying(rest), r);
        } else {
          assert s'.toTrack == s.toTrack;
          assert Qualifying(results) == Qualifying(rest);
        }
      } else {
        assert s' == s;
        assert Located(results) == Located(rest);
        assert Qualifying(results) == Qualifying(rest);
      }
    }
  }

  lemma ScreenRectsCons(added: seq<ScreenRect>, l: seq<Recognition>, r: Recognition, toScreen: Mapping)
    requires r.location.Some? && r.confidence.Some? && ScreenRectsOf(added, l, toScreen)
    ensures ScreenRectsOf([ScreenRect(r.confidence.value, toScreen(r.location.value))] + added, [r] + l, toScreen)
  {
    var added', l' := [ScreenRect(r.confidence.value, toScreen(r.location.value))] + added, [r] + l;
    forall k | 0 < k < |l'|
      ensures l'[k].confidence.Some? && l'[k].location.Some?
      ensures added'[k] == ScreenRect(l'[k].confidence.value, toScreen(l'[k].location.value))
    {
      assert l'[k] == l[k - 1] && added'[k] == added[k - 1];
    }
  }

  lemma CandidatesCons(toTrack: seq<Candidate>, q: seq<Recognition>, r: Recognition)
    requires r.location.Some? && r.confidence.Some? && CandidatesOf(toTrack, q)
    ensures CandidatesOf([Candidate(r.confidence.value, r.location.value, r.title)] + toTrack, [r] + q)
  {
    var toTrack', q' := [Candidate(r.confidence.value, r.location.value, r.title)] + toTrack, [r] + q;
    forall k | 0 < k < |q'|
      ensures q'[k].confidence.Some? && q'[k].location.Some?
      ensures toTrack'[k] == Candidate(q'[k].confidence.value, q'[k].location.value, q'[k].title)
    {
      assert q'[k] == q[k - 1] && toTrack'[k] == toTrack[k - 1];
    }
  }

  /** The first `n` qualifying detections, the ones the second loop reaches
      before every colour is used, all carry a title. */
  predicate TitlesPresent(q: seq<Recognition>) {
    forall k :: 0 <= k < Min(|q|, |COLORS|) ==> q[k].title.Some?
  }

  /** `processResults` with a matrix and no null confidences or titles where
      it dereferences them: the screen rectangles of the located detections
      are appended in order; with no qualifying detection the tracked list is
      kept, otherwise it becomes the first 15 qualifying detections, the k-th
      with colour `COLORS[k]`. Titles after the 15th are never read. */
  lemma ProcessResultsSpec(t: Tracker, results: seq<Recognition>, toScreen: Mapping)
    requires ConfidencesPresent(results)
    requires TitlesPresent(Qualifying(results))
    ensures var r, q := ProcessResults(t, results, Some(toScreen)), Qualifying(results);
      && r.Returned?
      && |t.screenRects| <= |r.tracker.screenRects|
      && r.tracker.screenRects[..|t.screenRects|] == t.screenRects
      && ScreenRectsOf(r.tracker.screenRects[|t.screenRects|..], Located(results), toScreen)
      && (|q| == 0 ==> r.tracker.trackedObjects == t.trackedObjects)
      && (|q| > 0 ==> |r.tracker.trackedObjects| == Min(|q|, |COLORS|)
                      && ColouredPrefix(r.tracker.trackedObjects, q))
  {
    SelectSpec(results, toScreen);
    var s, q := Select(results, toScreen), Qualifying(results);
    var r := ProcessResults(t, results, Some(toScreen));
    assert r.tracker.screenRects == t.screenRects + s.added;
    assert r.tracker.screenRects[|t.screenRects|..] == s.added;
    if |q| > 0 {
      TrackSpec(s.toTrack, []);
      var (out, threw) := Track(s.toTrack, []);
      assert r.tracker.trackedObjects == out;
      assert |out| < |q| ==> s.toTrack[|out|].title == q[|out|].title;
      assert !threw;
      forall k | 0 <= k < |out|
        ensures q[k].confidence.Some? && q[k].location.Some? && q[k].title.Some?
        ensures out[k] == TrackedRecognition(q[k].location.value, q[k].confidence.value, COLORS[k], q[k].title.value)
      {
        assert out[0 + k] == out[k];
      }
    }
  }

  /** Whenever `processResults` replaces the tracked list, the colours of the
      new list are pairwise distinct. */
  lemma TrackedColorsDistinct(t: Tracker, results: seq<Recognition>, toScreen: Mapping)
    requires ConfidencesPresent(results)
    requires TitlesPresent(Qualifying(results))
    requires |Qualifying(results)| > 0
    ensures var tracked := ProcessResults(t, results, Some(toScreen)).tracker.trackedObjects;
      forall k, l :: 0 <= k < l < |tracked| ==> tracked[k].color != tracked[l].color
  {
    ProcessResultsSpec(t, results, toScreen);
    ColorsDistinct();
  }

  /** A qualifying detection without a title, among the first 15 and with
      only titled ones before it, makes `processResults` throw at `title!!`:
      the screen rectangles of all located detections are already appended,
      and the tracked list holds the `k` qualifying detections before it,
      coloured in palette order. */
  lemma NullTitleThrows(t: Tracker, results: seq<Recognition>, toScreen: Mapping, k: nat)
    requires ConfidencesPresent(results)
    requires var q := Qualifying(results);
      k < Min(|q|, |COLORS|) && q[k].title.None? && forall j :: 0 <= j < k ==> q[j].title.Some?
    ensures var r := ProcessResults(t, results, Some(toScreen));
      && r.Threw? && r.failure == NullPointer
      && r.tracker.screenRects[..|t.screenRects|] == t.screenRects
      && ScreenRectsOf(r.tracker.screenRects[|t.screenRects|..], Located(results), toScreen)
      && |r.tracker.trackedObjects| == k
      && ColouredPrefix(r.tracker.trackedObjects, Qualifying(results))
  {
    SelectSpec(results, toScreen);
    var s, q := Select(results, toScreen), Qualifying(results);
    var r := ProcessResults(t, results, Some(toScreen));
    assert r.tracker.screenRects[|t.screenRects|..] == s.added;
    TrackSpec(s.toTrack, []);
    var (out, threw) := Track(s.toTrack, []);
    assert s.toTrack[k].title == q[k].title;
    assert |out| < |q| ==> s.toTrack[|out|].title == q[|out|].title;
    assert r.tracker.trackedObjects == out;
    forall j | 0 <= j < |out|
      ensures q[j].confidence.Some? && q[j].location.Some? && q[j].title.Some?
      ensures out[j] == TrackedRecognition(q[j].location.value, q[j].confidence.value, COLORS[j], q[j].title.value)
    {
      assert out[0 + j] == out[j];
    }
  }

  /** Detections without a location are skipped entirely: dropping them from
      the input changes nothing. */
  lemma SkipsNullLocations(t: Tracker, results: seq<Recognition>, matrix: Option<Mapping>)
    ensures ProcessResults(t, results, matrix) == ProcessResults(t, Located(results), matrix)
  {
    if matrix.Some? {
      SelectIgnoresNullLocations(results, matrix.value);
    }
  }

  lemma {:induction false} SelectIgnoresNullLocations(results: seq<Recognition>, toScreen: Mapping)
    ensures Select(results, toScreen) == Select(Located(results), toScreen)
    decreases |results|
  {
    if |results| > 0 {
      var rest := results[1..];
      SelectIgnoresNullLocations(rest, toScreen);
      if results[0].location.Some? {
        var l := Located(results);
        assert l == [results[0]] + Located(rest);
        assert l[1..] == Located(rest);
      } else {
        assert Located(results) == Located(rest);
      }
    }
  }

  /** A located detection with a null confidence makes `processResults`
      throw, after appending the screen rectangles of the located detections
      before it. */
  lemma {:induction false} NullConfidenceThrows(t: Tracker, results: seq<Recognition>, toScreen: Mapping, n: nat)
    requires n < |results| && results[n].location.Some? && results[n].confidence.None?
    ensures ProcessResults(t, results, Some(toScreen)).Threw?
    ensures ProcessResults(t, results, Some(toScreen)).failure == NullPointer
    ensures ProcessResults(t, results, Some(toScreen)).tracker.trackedObjects == t.trackedObjects
    ensures ConfidencesPresent(results[..n]) ==>
      var r := ProcessResults(t, results, Some(toScreen));
      && r.tracker.screenRects[..|t.screenRects|] == t.screenRects
      && ScreenRectsOf(r.tracker.screenRects[|t.screenRects|..], Located(results[..n]), toScreen)
  {
    SelectStopsOnNullConfidence(results, toScreen, n);
  }

  lemma {:induction false} SelectStopsOnNullConfidence(results: seq<Recognition>, toScreen: Mapping, n: nat)
    requires n < |results| && results[n].location.Some? && results[n].confidence.None?
    ensures Select(results, toScreen).nullConfidence
    ensures ConfidencesPresent(results[..n]) ==>
      ScreenRectsOf(Select(results, toScreen).added, Located(results[..n]), toScreen)
    decreases n
  {
    if n > 0 {
      var rest, r := results[1..], results[0];
      SelectStopsOnNullConfidence(rest, toScreen, n - 1);
      if ConfidencesPresent(results[..n]) {
        assert rest[..n - 1] == results[..n][1..];
        assert results[..n][0] == r;
        assert ConfidencesPresent(rest[..n - 1]) by {
          forall x | x in rest[..n - 1] ensures x.location.Some? ==> x.confidence.Some? {
            assert x in results[..n];
          }
        }
        if r.location.Some? {
          assert r in results[..n];
          assert Located(results[..n]) == [r] + Located(rest[..n - 1]);
          ScreenRectsCons(Select(rest, toScreen).added, Located(rest[..n - 1]), r, toScreen);
        } else {
          assert Located(results[..n]) == Located(rest[..n - 1]);
        }
      }
    }
  }

  // ---------------------------------------------------------------------
  // draw: the integer geometry
  // ---------------------------------------------------------------------

  /** `sensorOrientation % 180 == 90`, as `draw` tests for a rotated frame.
      Kotlin's remainder keeps the sign of the orientation, so only positive
      odd right angles count as rotated: -90 and -270 do not. */
  function Rotated(orientation: Int32): (rotated: bool)
    ensures rotated <==> 0 < orientation && orientation % 180 == 90
  {
    var rotated := TruncMod(orientation, 180) == 90;
    assert 0 <= orientation ==> TruncMod(orientation, 180) == orientation % 180;
    rotated
  }

  /** The canvas multiplier and the destination size `draw` hands to
      `getTransformationMatrix`. */
  datatype Geometry = Geometry(rotated: bool, multiplier: Int32, dstWidth: Int32, dstHeight: Int32)

  datatype DrawOutcome = Drew(geometry: Geometry) | DrawThrew(failure: Failure)

  /** The integer part of `draw` for a frame drawn rotated or not: the
      largest whole multiple of the (possibly swapped) frame that fits the
      canvas, as `min(canvas.height / h, canvas.width / w)`. */
  function CanvasGeometry(rotated: bool, frameWidth: Int32, frameHeight: Int32,
                          canvasWidth: Int32, canvasHeight: Int32): (r: DrawOutcome)
    ensures r.DrawThrew? <==> frameWidth == 0 || frameHeight == 0
    ensures r.DrawThrew? ==> r.failure == DivideByZero
    ensures r.Drew? ==> r.geometry.rotated == rotated
  {
    var down := if rotated then frameWidth else frameHeight;
    var across := if rotated then frameHeight else frameWidth;
    if down == 0 || across == 0 then DrawThrew(DivideByZero)
    else
      var multiplier := Min(Div32(canvasHeight, down), Div32(canvasWidth, across));
      Drew(Geometry(rotated, multiplier, Wrap32(multiplier * across), Wrap32(multiplier * down)))
  }

  /** For a non-empty frame and canvas, the destination fits the canvas and
      the multiplier is the largest that does. */
  lemma GeometryFitsCanvas(rotated: bool, frameWidth: Int32, frameHeight: Int32,
                           canvasWidth: Int32, canvasHeight: Int32)
    requires 0 < frameWidth && 0 < frameHeight && 0 <= canvasWidth && 0 <= canvasHeight
    ensures var g := CanvasGeometry(rotated, frameWidth, frameHeight, canvasWidth, canvasHeight).geometry;
      var down := if rotated then frameWidth else frameHeight;
      var across := if rotated then frameHeight else frameWidth;
      && 0 <= g.multiplier
      && g.dstWidth == g.multiplier * across <= canvasWidth
      && g.dstHeight == g.multiplier * down <= canvasHeight
      && ((g.multiplier + 1) * across > canvasWidth || (g.multiplier + 1) * down > canvasHeight)
  {
    var down := if rotated then frameWidth else frameHeight;
    var across := if rotated then frameHeight else frameWidth;
    TruncDivNonNegative(canvasHeight, down);
    TruncDivNonNegative(canvasWidth, across);
    LargestMultiple(across, down, canvasWidth, canvasHeight);
  }

  /** `min(height / down, width / across)` is the largest m with
      m * across <= width and m * down <= height. */
  lemma LargestMultiple(across: int, down: int, width: int, height: int)
    requires 0 < across && 0 < down && 0 <= width && 0 <= height
    ensures var m := Min(height / down, width / across);
      && 0 <= m && 0 <= m * across <= width && 0 <= m * down <= height
      && ((m + 1) * across > width || (m + 1) * down > height)
  {
    var qh, qw := height / down, width / across;
    var m := Min(qh, qw);
    MulNonNegative(m, across);
    MulNonNegative(m, down);
    MulMonotone(m, qw, across);
    MulMonotone(m, qh, down);
  }

  /** `draw` as written: `rotated` from `Rotated`. */
  function DrawGeometry(t: Tracker, canvasWidth: Int32, canvasHeight: Int32): (r: DrawOutcome)
    ensures r.Drew? ==> (r.geometry.rotated <==> 0 < t.sensorOrientation && t.sensorOrientation % 180 == 90)
  {
    CanvasGeometry(Rotated(t.sensorOrientation), t.frameWidth, t.frameHeight, canvasWidth, canvasHeight)
  }

  /** `draw` with `rotated` taken from the `transpose` test that
      `getTransformationMatrix` applies to the same orientation. */
  function DrawGeometryCorrected(t: Tracker, canvasWidth: Int32, canvasHeight: Int32): (r: DrawOutcome)
    ensures r.Drew? ==> (r.geometry.rotated <==> ImageUtils.Transpose(t.sensorOrientation))
  {
    CanvasGeometry(ImageUtils.Transpose(t.sensorOrientation), t.frameWidth, t.frameHeight,
                   canvasWidth, canvasHeight)
  }

  /** The two tests agree on non-negative orientations and disagree exactly on
      the negative odd right angles, such as -90 and -270. */
  lemma RotatedDisagreesWithTranspose(orientation: Int32)
    requires Abs(orientation) + 90 <= INT32_MAX
    ensures Rotated(orientation) != ImageUtils.Transpose(orientation)
        <==> orientation < 0 && orientation % 180 == 90
  {
  }

  /** As written, a 640x480 frame at orientation -90 on a 1080x1920 canvas is
      given an unswapped 640x480 destination while the matrix transposes the
      frame to 480x640, so the matrix scales the two axes by 4/3 and 3/4. */
  lemma DrawGeometryMinusNinety()
    ensures DrawGeometry(Tracker([], [], 640, 480, -90, true), 1080, 1920).geometry
         == Geometry(false, 1, 640, 480)
    ensures ImageUtils.InExtent(640, 480, -90) == (480, 640)
  {
    ImageUtils.RightAngleRotations(640, 480);
    assert !Rotated(-90);
    assert Div32(1920, 480) == 4 && Div32(1080, 640) == 1;
  }

  /** With the corrected test the destination is always `multiplier` times
      the extent `getTransformationMatrix` compares it with, so the matrix
      scales both axes by the same factor. */
  lemma CorrectedGeometryScalesUniformly(t: Tracker, canvasWidth: Int32, canvasHeight: Int32)
    requires 0 < t.frameWidth && 0 < t.frameHeight && 0 <= canvasWidth && 0 <= canvasHeight
    ensures var g := DrawGeometryCorrected(t, canvasWidth, canvasHeight).geometry;
      var extent := ImageUtils.InExtent(t.frameWidth, t.frameHeight, t.sensorOrientation);
      g.dstWidth == g.multiplier * extent.0 && g.dstHeight == g.multiplier * extent.1
  {
    GeometryFitsCanvas(ImageUtils.Transpose(t.sensorOrientation), t.frameWidth, t.frameHeight,
                       canvasWidth, canvasHeight);
  }
}

=== FILE: response_data.dfy ===
/** The result envelope of the REST API: an error code (0 for success) and a message. */
module ResponseData {
  import opened KotlinInt

  datatype ResultError = ResultError(code: Int32, message: string)

  datatype ResponseResult = ResponseResult(error: ResultError)

  /** `isError()`. */
  function IsError(r: ResponseResult): bool {
    r.error.code != 0
  }

  /** `isSuccess()`. */
  function IsSuccess(r: ResponseResult): bool {
    r.error.code == 0
  }

  /** Every result is exactly one of an error and a success, and it is a
      success exactly when its code is 0. */
  lemma ErrorXorSuccess(r: ResponseResult)
    ensures IsError(r) != IsSuccess(r)
    ensures IsSuccess(r) <==> r.error.code == 0
  {
  }

  /** Neither check looks at the message. */
  lemma MessageIrrelevant(r: ResponseResult, message: string)
    ensures IsError(ResponseResult(ResultError(r.error.code, message))) == IsError(r)
    ensures IsSuccess(ResponseResult(ResultError(r.error.code, message))) == IsSuccess(r)
  {
  }
}

=== FILE: yuv_conversion.dfy ===
/**
 * The two frame converters of `ImageUtils`: planar YUV 4:2:0 (three planes
 * with explicit strides, as the Camera2 API delivers them) and semi-planar
 * YUV 4:2:0 (NV21: a luma plane followed by interleaved V,U pairs, as the
 * legacy camera API delivers it), both to row-major ARGB.
 *
 * The source writes into a caller-owned `IntArray`; here the converters take
 * that array's contents and return its contents afterwards. An index outside
 * an array makes the JVM throw part-way through a frame; that outcome is
 * `OutOfBounds`, carrying the array as the throw leaves it.
 */
module YuvConversion {
  import opened KotlinInt
  import opened ImageUtils
  import opened Arithmetic

  /** The bits of a Kotlin `Byte`. */
  type Byte = bv8

  /** `0xff and b.toInt()`: the byte read as an unsigned value. */
  function Unsigned(b: Byte): (x: Word)
    ensures x <= 0xFF && x as Byte == b
  {
    b as Word
  }

  /** What a conversion leaves in the output array. */
  datatype Conversion =
    | Converted(output: seq<Word>)
      // Pixel `pixel` (row-major) read or wrote outside an array.
    | OutOfBounds(output: seq<Word>, pixel: nat)
  {
    /** How many leading pixels of the output the conversion wrote. */
    function Written(frameSize: nat): nat {
      if Converted? then frameSize else pixel
    }
  }

  /** The number of pixels the two nested loops visit. */
  function FrameSize(width: Int32, height: Int32): nat {
    if width > 0 && height > 0 then width * height else 0
  }

  /** A YUV 4:2:0 frame in one of the two layouts the converters read. */
  datatype Frame =
      // Three planes with explicit strides, as the Camera2 API delivers them.
    | Planar(yData: seq<Byte>, uData: seq<Byte>, vData: seq<Byte>,
             yRowStride: Int32, uvRowStride: Int32, uvPixelStride: Int32)
      // NV21: `width * height` luma bytes, then one (V, U) pair per 2x2 block.
    | SemiPlanar(data: seq<Byte>, width: Int32, height: Int32)

  /** Where planar pixel (j, i) reads its luma, in Kotlin `Int` arithmetic. */
  function LumaIndex(f: Frame, j: nat, i: nat): Int32
    requires f.Planar?
  {
    Wrap32(Wrap32(f.yRowStride * j) + i)
  }

  /** Where planar pixel (j, i) reads its chroma in both chroma planes: one
      sample per 2x2 block, `j shr 1` and `i shr 1` being halves of
      non-negative counters. */
  function ChromaIndex(f: Frame, j: nat, i: nat): Int32
    requires f.Planar?
  {
    Wrap32(Wrap32(f.uvRowStride * (j / 2)) + Wrap32((i / 2) * f.uvPixelStride))
  }

  /** Where the chroma pairs of semi-planar row j start: `uvp` before the row. */
  function ChromaRowStart(f: Frame, j: nat): Int32
    requires f.SemiPlanar?
  {
    Wrap32(Wrap32(f.width * f.height) + Wrap32((j / 2) * f.width))
  }

  /** Where semi-planar pixel (j, i) reads its V byte; its U byte follows.
      No wrap-around is modelled here: every index read before it was below
      the array's length, and a JVM array has at most `Int.MAX_VALUE` entries. */
  function PairIndex(f: Frame, j: nat, i: nat): int
    requires f.SemiPlanar?
  {
    ChromaRowStart(f, j) + 2 * (i / 2)
  }

  /** Pixel (j, i) reads only inside the frame's arrays. */
  predicate Readable(f: Frame, j: nat, i: nat) {
    match f
    case Planar(yData, uData, vData, _, _, _) =>
      && 0 <= LumaIndex(f, j, i) < |yData|
      && 0 <= ChromaIndex(f, j, i) < |uData|
      && ChromaIndex(f, j, i) < |vData|
    case SemiPlanar(data, width, _) =>
      && 0 <= j * width + i < |data|
      && 0 <= PairIndex(f, j, i)
      && PairIndex(f, j, i) + 1 < |data|
  }

  /** The unsigned (Y, U, V) samples pixel (j, i) reads. */
  function Samples(f: Frame, j: nat, i: nat): (Word, Word, Word)
    requires Readable(f, j, i)
  {
    match f
    case Planar(yData, uData, vData, _, _, _) =>
      (Unsigned(yData[LumaIndex(f, j, i)]),
       Unsigned(uData[ChromaIndex(f, j, i)]),
       Unsigned(vData[ChromaIndex(f, j, i)]))
    case SemiPlanar(data, width, _) =>
      (Unsigned(data[j * width + i]),
       Unsigned(data[PairIndex(f, j, i) + 1]),
       Unsigned(data[PairIndex(f, j, i)]))
  }

  /** Pixel (j, i) converted by `convert` from the samples it reads. */
  function PixelBy(convert: (Word, Word, Word) -> Word, f: Frame, j: nat, i: nat): Word
    requires Readable(f, j, i)
  {
    var (y, u, v) := Samples(f, j, i);
    convert(y, u, v)
  }

  /** Every pixel of a width x height frame reads inside the arrays and has a
      place in an output of `outputLength` entries. */
  predicate FrameOk(f: Frame, width: Int32, height: Int32, outputLength: nat) {
    && FrameSize(width, height) <= outputLength
    && forall j: nat, i: nat :: j < height && i < width ==> Readable(f, j, i)
  }

  /** `out` holds, at j * width + i, pixel (j, i) converted by `convert`. */
  predicate CellIn(convert: (Word, Word, Word) -> Word, f: Frame, width: nat, out: seq<Word>,
                   j: nat, i: nat)
  {
    && Readable(f, j, i)
    && j * width + i < |out|
    && out[j * width + i] == PixelBy(convert, f, j, i)
  }

  /** `out` holds the whole frame converted by `convert`, row-major. */
  predicate FrameIn(convert: (Word, Word, Word) -> Word, f: Frame, width: Int32, height: Int32,
                    out: seq<Word>)
  {
    forall j: nat, i: nat :: j < height && i < width ==> CellIn(convert, f, width, out, j, i)
  }

  /** The first `n` entries of `out` hold the first `n` pixels, row-major. */
  predicate PrefixIn(convert: (Word, Word, Word) -> Word, f: Frame, width: Int32, n: nat,
                     out: seq<Word>)
    requires 0 < width && n <= |out|
  {
    forall q: nat {:trigger RowOf(q, width)} :: q < n ==>
      && Readable(f, RowOf(q, width), ColumnOf(q, width))
      && out[q] == PixelBy(convert, f, RowOf(q, width), ColumnOf(q, width))
  }

  /** Pixel `pixel` (row-major) could not be converted: it reads outside the
      frame, or the output has no entry for it. */
  predicate FaultAt(f: Frame, width: Int32, pixel: nat, outputLength: nat)
    requires 0 < width
  {
    pixel == outputLength || !Readable(f, RowOf(pixel, width), ColumnOf(pixel, width))
  }

  /** What a conversion of a width x height frame into `output` promises: the
      output keeps its length; the frame converts completely exactly when every
      pixel is readable and fits; otherwise it stops at the first pixel that
      does not, with every pixel before it converted; entries past the written
      ones keep their old values. */
  predicate ConversionOf(convert: (Word, Word, Word) -> Word, f: Frame, width: Int32, height: Int32,
                         output: seq<Word>, r: Conversion)
  {
    && |r.output| == |output|
    && (r.Converted? <==> FrameOk(f, width, height, |output|))
    && (r.Converted? ==> FrameIn(convert, f, width, height, r.output))
    && (r.OutOfBounds? ==>
          && 0 < width && r.pixel < FrameSize(width, height) && r.pixel <= |output|
          && FaultAt(f, width, r.pixel, |output|)
          && PrefixIn(convert, f, width, r.pixel, r.output))
    && forall k :: r.Written(FrameSize(width, height)) <= k < |output| ==> r.output[k] == output[k]
  }

  /** A whole frame converted in row-major order is converted pixel by pixel. */
  lemma PrefixIsFrame(convert: (Word, Word, Word) -> Word, f: Frame, width: Int32, height: Int32,
                      out: seq<Word>)
    requires 0 < width && 0 < height && FrameSize(width, height) <= |out|
    requires PrefixIn(convert, f, width, FrameSize(width, height), out)
    ensures FrameIn(convert, f, width, height, out)
    ensures FrameOk(f, width, height, |out|)
  {
    forall j: nat, i: nat | j < height && i < width
      ensures Readable(f, j, i)
      ensures CellIn(convert, f, width, out, j, i)
    {
      RowMajorCell(j, i, width, height);
      var q := j * width + i;
      assert Readable(f, RowOf(q, width), ColumnOf(q, width));
    }
  }

  /** Writing pixel (j, i) at its row-major place extends a converted
      prefix that ends just before it. */
  lemma PrefixExtend(convert: (Word, Word, Word) -> Word, f: Frame, width: Int32, j: nat, i: nat,
                     out: seq<Word>)
    requires 0 < width && i < width && j * width + i < |out|
    requires Readable(f, j, i)
    requires PrefixIn(convert, f, width, j * width + i, out)
    ensures PrefixIn(convert, f, width, j * width + i + 1, out[j * width + i := PixelBy(convert, f, j, i)])
  {
    var yp := j * width + i;
    RowMajorCell(j, i, width, j + 1);
    var out' := out[yp := PixelBy(convert, f, j, i)];
    forall q: nat | q < yp + 1
      ensures Readable(f, RowOf(q, width), ColumnOf(q, width))
      ensures out'[q] == PixelBy(convert, f, RowOf(q, width), ColumnOf(q, width))
    {
      if q < yp {
        assert out'[q] == out[q];
      }
    }
  }

  /** Row j of a frame ends inside it, at `(j + 1) * width`. */
  lemma RowFits(j: nat, width: Int32, height: Int32)
    requires 0 < width && j < height
    ensures j * width + width == (j + 1) * width <= FrameSize(width, height)
  {
    MulSubtract(j + 1, j, width);
    MulMonotone(j + 1, height, width);
  }

  /** A conversion that reached the end of the frame converted all of it. */
  lemma CompletedConversion(convert: (Word, Word, Word) -> Word, f: Frame, width: Int32, height: Int32,
                            output: seq<Word>, out: seq<Word>)
    requires 0 < width && 0 < height && FrameSize(width, height) <= |output| == |out|
    requires PrefixIn(convert, f, width, FrameSize(width, height), out)
    requires forall k :: FrameSize(width, height) <= k < |output| ==> out[k] == output[k]
    ensures ConversionOf(convert, f, width, height, output, Converted(out))
  {
    PrefixIsFrame(convert, f, width, height, out);
  }

  /** A conversion stopped at a faulting pixel inside the frame. */
  lemma StoppedConversion(convert: (Word, Word, Word) -> Word, f: Frame, width: Int32, height: Int32,
                          output: seq<Word>, out: seq<Word>, pixel: nat)
    requires 0 < width && pixel < FrameSize(width, height) && pixel <= |output| == |out|
    requires FaultAt(f, width, pixel, |output|)
    requires PrefixIn(convert, f, width, pixel, out)
    requires forall k :: pixel <= k < |output| ==> out[k] == output[k]
    ensures ConversionOf(convert, f, width, height, output, OutOfBounds(out, pixel))
  {
    RowBelow(pixel, width, height);
  }

  // ---------------------------------------------------------------------
  // convertYUV420ToARGB8888
  // ---------------------------------------------------------------------

  /** `ImageUtils.convertYUV420ToARGB8888`. */
  method ConvertYUV420ToARGB8888(yData: seq<Byte>, uData: seq<Byte>, vData: seq<Byte>,
                                 width: Int32, height: Int32,
                                 yRowStride: Int32, uvRowStride: Int32, uvPixelStride: Int32,
                                 output: seq<Word>) returns (r: Conversion)
    ensures ConversionOf(YUV2RGB, Planar(yData, uData, vData, yRowStride, uvRowStride, uvPixelStride),
                         width, height, output, r)
  {
    r := ConvertPlanarBy(YUV2RGB, Planar(yData, uData, vData, yRowStride, uvRowStride, uvPixelStride),
                         width, height, output);
  }

  /**
   * The outer loop of `convertYUV420ToARGB8888`, for any per-pixel
   * conversion: one row after the other.
   */
  method ConvertPlanarBy(convert: (Word, Word, Word) -> Word, f: Frame, width: Int32, height: Int32,
                         output: seq<Word>) returns (r: Conversion)
    requires f.Planar?
    ensures ConversionOf(convert, f, width, height, output, r)
  {
    if width <= 0 || height <= 0 {
      // Both loops, or every inner one, are empty.
      return Converted(output);
    }
    var out := output;
    var yp := 0;
    var j: nat := 0;
    while j < height
      invariant j <= height
      invariant yp == j * width && yp <= |output|
      invariant |out| == |output|
      invariant PrefixIn(convert, f, width, yp, out)
      invariant forall k :: yp <= k < |output| ==> out[k] == output[k]
    {
      var fault;
      RowFits(j, width, height);
      out, yp, fault := ConvertPlanarRow(convert, f, width, j, yp, out, output);
      if fault {
        StoppedConversion(convert, f, width, height, output, out, yp);
        return OutOfBounds(out, yp);
      }
      j := j + 1;
    }
    assert yp == FrameSize(width, height);
    CompletedConversion(convert, f, width, height, output, out);
    return Converted(out);
  }

  /**
   * The inner loop of `convertYUV420ToARGB8888` for row j: luma at the row's
   * own stride, chroma from the pixel's 2x2 block, written at the running
   * pixel count `yp`. Stops at the first pixel that reads or writes outside
   * an array.
   */
  method ConvertPlanarRow(convert: (Word, Word, Word) -> Word, f: Frame, width: Int32, j: nat, start: nat,
                          prior: seq<Word>, output: seq<Word>)
    returns (out: seq<Word>, yp: nat, fault: bool)
    requires f.Planar? && 0 < width
    requires start == j * width && start <= |output| && |prior| == |output|
    requires PrefixIn(convert, f, width, start, prior)
    requires forall k :: start <= k < |output| ==> prior[k] == output[k]
    ensures |out| == |output| && start <= yp <= |output|
    ensures PrefixIn(convert, f, width, yp, out)
    ensures forall k :: yp <= k < |output| ==> out[k] == output[k]
    ensures !fault ==> yp == start + width
    ensures fault ==> yp < start + width && FaultAt(f, width, yp, |output|)
  {
    out, yp := prior, start;
    var i: nat := 0;
    while i < width
      invariant i <= width
      invariant yp == j * width + i && yp <= |output|
      invariant |out| == |output|
      invariant PrefixIn(convert, f, width, yp, out)
      invariant forall k :: yp <= k < |output| ==> out[k] == output[k]
    {
      RowMajorCell(j, i, width, j + 1);
      if !Readable(f, j, i) || yp == |output| {
        return out, yp, true;
      }
      PrefixExtend(convert, f, width, j, i, out);
      out := out[yp := PixelBy(convert, f, j, i)];
      yp := yp + 1;
      i := i + 1;
    }
    return out, yp, false;
  }

  // ---------------------------------------------------------------------
  // convertYUV420SPToARGB8888
  // ---------------------------------------------------------------------

  /** `ImageUtils.convertYUV420SPToARGB8888`. */
  method ConvertYUV420SPToARGB8888(input: seq<Byte>, width: Int32, height: Int32, output: seq<Word>)
    returns (r: Conversion)
    requires |input| <= INT32_MAX
    ensures ConversionOf(YUV2RGB, SemiPlanar(input, width, height), width, height, output, r)
  {
    r := ConvertSemiPlanarBy(YUV2RGB, SemiPlanar(input, width, height), output);
  }

  /** At an even column: `v = input[uvp++]`, then `u = input[uvp++]`, or
      `ok == false` when either read is outside the array. */
  method ReadPair(f: Frame, j: nat, i: nat, uvp: int) returns (ok: bool, v: Word, u: Word, next: int)
    requires f.SemiPlanar? && |f.data| <= INT32_MAX
    requires i % 2 == 0 && uvp == PairIndex(f, j, i)
    ensures ok <==> 0 <= uvp && uvp + 1 < |f.data|
    ensures ok ==> v == Unsigned(f.data[uvp]) && u == Unsigned(f.data[uvp + 1]) && next == uvp + 2
  {
    var input, p := f.data, uvp;
    if p < 0 || p >= |input| {
      return false, 0, 0, p;
    }
    v := Unsigned(input[p]);
    p := p + 1;
    if p >= |input| {
      return false, v, 0, p;
    }
    u := Unsigned(input[p]);
    p := p + 1;
    return true, v, u, p;
  }

  /**
   * The outer loop of `convertYUV420SPToARGB8888`, for any per-pixel
   * conversion: one row after the other.
   */
  method ConvertSemiPlanarBy(convert: (Word, Word, Word) -> Word, f: Frame, output: seq<Word>)
    returns (r: Conversion)
    requires f.SemiPlanar? && |f.data| <= INT32_MAX
    ensures ConversionOf(convert, f, f.width, f.height, output, r)
  {
    var width, height := f.width, f.height;
    if width <= 0 || height <= 0 {
      return Converted(output);
    }
    var out := output;
    var yp := 0;
    var j: nat := 0;
    while j < height
      invariant j <= height
      invariant yp == j * width && yp <= |output|
      invariant |out| == |output|
      invariant PrefixIn(convert, f, width, yp, out)
      invariant forall k :: yp <= k < |output| ==> out[k] == output[k]
    {
      var fault;
      RowFits(j, width, height);
      out, yp, fault := ConvertSemiPlanarRow(convert, f, j, yp, out, output);
      if fault {
        StoppedConversion(convert, f, width, height, output, out, yp);
        return OutOfBounds(out, yp);
      }
      j := j + 1;
    }
    assert yp == FrameSize(width, height);
    CompletedConversion(convert, f, width, height, output, out);
    return Converted(out);
  }

  /**
   * The inner loop of `convertYUV420SPToARGB8888` for row j: luma is read at
   * the running pixel count `yp`; at every even column the next (V, U) pair
   * of the row's chroma line is read, and the odd column after it reuses
   * that pair. Stops at the first pixel that reads or writes outside an array.
   */
  method ConvertSemiPlanarRow(convert: (Word, Word, Word) -> Word, f: Frame, j: nat, start: nat,
                              prior: seq<Word>, output: seq<Word>)
    returns (out: seq<Word>, yp: nat, fault: bool)
    requires f.SemiPlanar? && |f.data| <= INT32_MAX && 0 < f.width && j < f.height
    requires start == j * f.width && start <= |output| && |prior| == |output|
    requires PrefixIn(convert, f, f.width, start, prior)
    requires forall k :: start <= k < |output| ==> prior[k] == output[k]
    ensures |out| == |output| && start <= yp <= |output|
    ensures PrefixIn(convert, f, f.width, yp, out)
    ensures forall k :: yp <= k < |output| ==> out[k] == output[k]
    ensures !fault ==> yp == start + f.width
    ensures fault ==> yp < start + f.width && FaultAt(f, f.width, yp, |output|)
  {
    var input, width := f.data, f.width;
    out, yp := prior, start;
    var uvp: int := ChromaRowStart(f, j);
    var u: Word, v: Word := 0, 0;
    var i: nat := 0;
    while i < width
      invariant i <= width
      invariant yp == j * width + i && yp <= |output|
      invariant |out| == |output|
      invariant uvp == ChromaRowStart(f, j) + i + i % 2
      invariant i % 2 == 1 ==> HoldsPair(f, j, i, v, u)
      invariant PrefixIn(convert, f, width, yp, out)
      invariant forall k :: yp <= k < |output| ==> out[k] == output[k]
    {
      RowMajorCell(j, i, width, j + 1);
      if yp >= |input| {
        return out, yp, true;
      }
      var y := Unsigned(input[yp]);
      var ok;
      ok, v, u, uvp := ChromaStep(f, j, i, uvp, v, u);
      if !ok {
        return out, yp, true;
      }
      assert Samples(f, j, i) == (y, u, v);
      if yp == |output| {
        return out, yp, true;
      }
      PrefixExtend(convert, f, width, j, i, out);
      out := out[yp := convert(y, u, v)];
      yp := yp + 1;
      i := i + 1;
    }
    return out, yp, false;
  }

  /** `v` and `u` are the V and U bytes of pixel (j, i)'s pair, inside the array. */
  predicate HoldsPair(f: Frame, j: nat, i: nat, v: Word, u: Word)
    requires f.SemiPlanar?
  {
    && 0 <= PairIndex(f, j, i) && PairIndex(f, j, i) + 1 < |f.data|
    && v == Unsigned(f.data[PairIndex(f, j, i)]) && u == Unsigned(f.data[PairIndex(f, j, i) + 1])
  }

  /** The chroma of semi-planar pixel (j, i): at an even column the next pair
      is read and `uvp` moves past it; at an odd column the pair read for the
      column before is kept. `ok == false` when a read is outside the array. */
  method ChromaStep(f: Frame, j: nat, i: nat, uvp: int, v: Word, u: Word)
    returns (ok: bool, v': Word, u': Word, uvp': int)
    requires f.SemiPlanar? && |f.data| <= INT32_MAX
    requires uvp == ChromaRowStart(f, j) + i + i % 2
    requires i % 2 == 1 ==> HoldsPair(f, j, i, v, u)
    ensures ok <==> 0 <= PairIndex(f, j, i) && PairIndex(f, j, i) + 1 < |f.data|
    ensures ok ==> HoldsPair(f, j, i, v', u')
    ensures ok ==> uvp' == ChromaRowStart(f, j) + (i + 1) + (i + 1) % 2
    ensures ok && i % 2 == 0 ==> HoldsPair(f, j, i + 1, v', u')
  {
    if i % 2 == 0 {
      assert PairIndex(f, j, i) == uvp;
      ok, v', u', uvp' := ReadPair(f, j, i, uvp);
      assert PairIndex(f, j, i + 1) == PairIndex(f, j, i);
    } else {
      ok, v', u', uvp' := true, v, u, uvp;
    }
  }

  // ---------------------------------------------------------------------
  // Properties of the two layouts
  // ---------------------------------------------------------------------

  /** The last byte semi-planar pixel (j, i) reads lies inside a frame of
      `SemiPlanarSize` bytes, counted without wrap-around. */
  lemma PairInsideFrame(width: nat, height: nat, j: nat, i: nat)
    requires j < height && i < width
    ensures width * height + (j / 2) * width + 2 * (i / 2) + 1 < SemiPlanarSize(width, height)
  {
    var w2, h2 := CeilHalf(width), CeilHalf(height);
    var row, pair := j / 2, i / 2;
    assert row <= h2 - 1 && 2 * pair + 1 < 2 * w2;
    // row * width <= (h2 - 1) * width <= (h2 - 1) * (2 * w2) == 2 * (w2 * h2) - 2 * w2
    MulMonotone(row, h2 - 1, width);
    MulMonotone(width, 2 * w2, h2 - 1);
    assert (h2 - 1) * width == width * (h2 - 1);
    assert (2 * w2) * (h2 - 1) == 2 * (w2 * h2) - 2 * w2;
  }

  /** A buffer of `getYUVByteSize(width, height)` bytes, as the legacy camera
      path allocates, holds every byte the semi-planar converter reads, so
      with an output of `width * height` entries the conversion completes. */
  lemma LegacyBufferIsLargeEnough(input: seq<Byte>, width: Int32, height: Int32, outputLength: nat)
    requires 0 < width && 0 < height && SemiPlanarSize(width, height) <= INT32_MAX
    requires |input| == GetYUVByteSize(width, height) && width * height <= outputLength
    ensures FrameOk(SemiPlanar(input, width, height), width, height, outputLength)
  {
    assert |input| == SemiPlanarSize(width, height);
    forall j: nat, i: nat | j < height && i < width
      ensures Readable(SemiPlanar(input, width, height), j, i)
    {
      SemiPlanarPixelInside(input, width, height, j, i);
    }
  }

  /** One pixel of `LegacyBufferIsLargeEnough`. */
  lemma SemiPlanarPixelInside(input: seq<Byte>, width: Int32, height: Int32, j: nat, i: nat)
    requires 0 < width && 0 < height && j < height && i < width
    requires |input| == SemiPlanarSize(width, height) <= INT32_MAX
    ensures Readable(SemiPlanar(input, width, height), j, i)
  {
    var f := SemiPlanar(input, width, height);
    RowMajorCell(j, i, width, height);
    PairInsideFrame(width, height, j, i);
    MulNonNegative(j / 2, width);
    assert Wrap32(width * height) == width * height;
    assert Wrap32((j / 2) * width) == (j / 2) * width;
    assert ChromaRowStart(f, j) == width * height + (j / 2) * width;
  }

  /** With non-negative strides and planes as large as the last pixel needs
      (as the Camera2 API delivers them), every pixel of a planar frame is
      readable, so with an output of `width * height` entries the conversion
      completes. */
  lemma PlanarBuffersLargeEnough(f: Frame, width: Int32, height: Int32, outputLength: nat)
    requires f.Planar? && 0 < width && 0 < height && width * height <= outputLength
    requires 0 <= f.yRowStride && 0 <= f.uvRowStride && 0 <= f.uvPixelStride
    requires f.yRowStride * (height - 1) + width <= |f.yData| <= INT32_MAX
    requires f.uvRowStride * ((height - 1) / 2) + ((width - 1) / 2) * f.uvPixelStride < |f.uData| <= INT32_MAX
    requires f.uvRowStride * ((height - 1) / 2) + ((width - 1) / 2) * f.uvPixelStride < |f.vData|
    ensures FrameOk(f, width, height, outputLength)
  {
    forall j: nat, i: nat | j < height && i < width
      ensures Readable(f, j, i)
    {
      PlanarPixelInside(f, width, height, j, i);
    }
  }

  /** One pixel of `PlanarBuffersLargeEnough`: its indices do not wrap and
      stay below the last pixel's. */
  lemma PlanarPixelInside(f: Frame, width: Int32, height: Int32, j: nat, i: nat)
    requires f.Planar? && j < height && i < width
    requires 0 <= f.yRowStride && 0 <= f.uvRowStride && 0 <= f.uvPixelStride
    requires f.yRowStride * (height - 1) + width <= |f.yData| <= INT32_MAX
    requires f.uvRowStride * ((height - 1) / 2) + ((width - 1) / 2) * f.uvPixelStride < |f.uData| <= INT32_MAX
    requires f.uvRowStride * ((height - 1) / 2) + ((width - 1) / 2) * f.uvPixelStride < |f.vData|
    ensures LumaIndex(f, j, i) == f.yRowStride * j + i
    ensures ChromaIndex(f, j, i) == f.uvRowStride * (j / 2) + (i / 2) * f.uvPixelStride
    ensures Readable(f, j, i)
  {
    MulNonNegative(f.yRowStride, j);
    MulMonotone(j, height - 1, f.yRowStride);
    assert Wrap32(f.yRowStride * j) == f.yRowStride * j;
    MulNonNegative(f.uvRowStride, j / 2);
    MulNonNegative(i / 2, f.uvPixelStride);
    MulMonotone(j / 2, (height - 1) / 2, f.uvRowStride);
    MulMonotone(i / 2, (width - 1) / 2, f.uvPixelStride);
    assert Wrap32(f.uvRowStride * (j / 2)) == f.uvRowStride * (j / 2);
    assert Wrap32((i / 2) * f.uvPixelStride) == (i / 2) * f.uvPixelStride;
  }

  /** Pixels of one 2x2 block read the same chroma samples, in both layouts. */
  lemma BlockSharesChroma(f: Frame, j: nat, i: nat, j2: nat, i2: nat)
    requires Readable(f, j, i) && Readable(f, j2, i2)
    requires j / 2 == j2 / 2 && i / 2 == i2 / 2
    ensures Samples(f, j, i).1 == Samples(f, j2, i2).1
    ensures Samples(f, j, i).2 == Samples(f, j2, i2).2
  {
  }

  /** The semi-planar converter steps from one chroma line to the next by
      `width` bytes while a line holds `(width + 1) / 2` pairs: for an odd
      width the U byte of a row's last pair is the V byte of the next chroma
      line's first pair. */
  lemma OddWidthChromaLinesOverlap(input: seq<Byte>, width: Int32, height: Int32)
    requires 0 < width && width % 2 == 1 && 2 < height
    requires width * height + width <= INT32_MAX
    ensures PairIndex(SemiPlanar(input, width, height), 0, width - 1) + 1
         == PairIndex(SemiPlanar(input, width, height), 2, 0)
  {
    var f := SemiPlanar(input, width, height);
    MulAtLeastFactor(height, width);
    assert ChromaRowStart(f, 0) == width * height;
    assert ChromaRowStart(f, 2) == width * height + width;
    assert 2 * ((width - 1) / 2) == width - 1;
  }
}
